=== FILE: README.md ===
# signalk-to-batch-points, modelled in Dafny

The plugin samples a vessel's own measurements from a Signal K store and collects
them into batches.

On every *update* signal it walks the vessel's own subtree and extracts one snapshot of flat metric keys `"<path>|<source>"` with their
values:
- a path published by several sources gives one key per source;
- a composite value, such as a position, is flattened to `"<path>.<field>|<source>"`;
- the include/exclude filter list is applied to the base path before that expansion. This is a choice of the model: the tests filter only single-source numbers, so they do not tell it apart from filtering each key.

The snapshot is captured into the in-progress batch. Its timestamp goes to the
end of `header`, and each value goes to the end of its key's series in `data`.

On every *write* signal it publishes `{header, data}` and starts again from
the empty batch.

The files:

- `path_filter.dfy` (`PathFilter`): filter patterns and modes.
  - A pattern is an exact dotted path or a trailing wildcard `prefix.*`.
  - The wildcard selects the paths strictly below `prefix`. `environment.*` does not match `environment2.x`.
  - The empty pattern selects nothing.
  - `IsSelected` is the scan that stops at the first match. It is an alternative formulation, proved equal to the verdict `Selected` that the walk uses.
- `snapshot.dfy` (`Snapshot`): the measurement tree as a tagged datatype.
  - A node is a branch, a single-source measurement or a multi-source measurement.
  - A reading is a number, a composite, or something non-numeric that is skipped.
  - `Walk` extracts the pairs. It is proved equal to a reference definition: enumerate the measurements, filter them, then expand them.
- `batch.dfy` (`Accumulator`): the immutable batch with `Capture`, `Flush` and runs of captures.
- `key_uniqueness.dfy` (`KeyUniqueness`): the well-formedness of a store and the proof that one extraction from a well-formed store has distinct keys.
- `plugin.dfy` (`Plugin`): the plugin as a state machine over update and write signals.
  - `start` fixes the owner and the filter.
  - The test harness fills unset options in before calling `start` (test.js:65-67): an exclude list that is empty. `Start` folds that defaulting in.
  - The output of `Run` is the sequence of published batches.
- `scenarios.dfy` (`Scenarios`): one lemma per case of the test suite, stating the exact batch that case publishes.

Timestamps and values are type parameters: they are copied, never computed on.
In the scenarios they are `int` and `real`.

## Model

| member | source | states |
|---|---|---|
| PathFilter.IsSelected | test.js:251-334 | the scan of the filter list returns exactly the filter's verdict: include keeps a path some pattern matches, exclude keeps a path no pattern matches; an empty include list keeps nothing and an empty exclude list keeps everything |
| PathFilter.GlobMatchesDescendants | test.js:293-334 | `prefix.*` matches a path iff the path is `prefix.` followed by a non-empty rest |
| PathFilter.SingleExactPattern | test.js:251-291 | with one exact pattern, include keeps that path only and exclude keeps every other path |
| PathFilter.IncludeExcludeComplement | test.js:251-291 | include and exclude over the same list split every path between them |
| PathFilter.EmptyLists | test.js:229-249 | the empty include list selects no path (include-nothing); the empty exclude list, the default of test.js:65-67, selects every path |
| Plugin.DefaultsKeepEverything | test.js:65-67 | without settings, every path is selected |
| Snapshot.Walk | test.js:82-98 | the extraction walk yields exactly the reference extraction: the measurements in depth-first order, those on a selected base path expanded and the rest dropped |
| Snapshot.ExtractMembership | test.js:251-291 | a pair is extracted iff it belongs to a measurement whose base path the filter selects |
| Snapshot.ExtractPartition | test.js:251-291 | the pairs kept by include and the pairs kept by exclude over one list together are, as a multiset, the unfiltered extraction |
| Snapshot.ExtractIncludeNothing | test.js:229-249 | an empty include list extracts nothing from any store |
| Snapshot.SimpleNumber | test.js:82-98 | a single-source number at a selected path yields exactly one pair, keyed by that path and source, with the value unchanged; at an unselected path it yields none |
| Snapshot.FanOut | test.js:336-353 | a path with several numeric sources yields one pair per source, each keyed by its own source and holding only that source's value |
| Snapshot.Flatten | test.js:210-227 | a composite of numbers yields one pair per field, keyed by `path.<field>` and the source, in field order |
| Snapshot.KeyInjective | test.js:336-374 | a key determines its path and its source when sources hold no bar separator, so different sources of one path never share a series |
| Accumulator.CaptureContents | test.js:100-179 | a capture appends its timestamp after the earlier ones, tracks the keys of its pairs besides the earlier keys, and grows each key's series by that key's values, earlier entries unchanged |
| Accumulator.CaptureNothing | test.js:229-249 | a capture with nothing extracted still records its timestamp and changes no series |
| Accumulator.AppendAllSeries | test.js:100-179 | appending a capture's pairs grows each key's series by exactly the values the pairs hold for it, in order |
| Accumulator.AppendAllKeys | test.js:126-151 | the keys tracked after appending are the earlier keys plus the keys of the pairs |
| Accumulator.FlushTwice | test.js:181-207 | a flush publishes the batch as it was, and a flush right after a flush publishes the empty batch |
| Accumulator.CaptureAllHeader | test.js:100-124 | after a run of captures, the header is the earlier header followed by the capture times in call order; its length grows by the number of captures |
| Accumulator.CaptureAllSeries | test.js:153-179 | after a run of captures, each series is its earlier contents followed by the key's values capture after capture |
| Accumulator.DistinctKeysAtMostOne | test.js:336-374 | a capture whose keys are distinct holds at most one value per key, and none exactly when the key is absent |
| Accumulator.CapturePreservesBounded | test.js:126-151 | a capture with distinct keys keeps every series no longer than the header |
| Accumulator.HistoryLength | test.js:100-151 | with at most one value per capture, a key's history is as long as the number of captures it appeared in |
| Accumulator.SeriesCountsAppearances | test.js:100-151 | from the empty batch, a key's series length is the number of captures in which the key appeared, never more than the header length |
| Accumulator.SeriesAligned | test.js:153-179 | a key holding one value at every capture has a series aligned with the header: entry i is the value captured at the i-th timestamp |
| Plugin.RunKeepsSettings | test.js:54-80 | the owner and the filter never change while the plugin runs |
| Plugin.RunAppendState | test.js:181-207 | running two traces back to back ends in the state that running their concatenation ends in |
| Plugin.RunAppendOutput | test.js:181-207 | running two traces back to back publishes the batches of the first trace, then those of the second, exactly as running their concatenation does |
| Plugin.OnePublishPerWrite | test.js:181-207 | exactly one batch is published per write signal |
| Plugin.RunUpdates | test.js:100-124 | update signals alone publish nothing and capture their extractions in order |
| Plugin.UpdatesThenWrite | test.js:100-179 | updates followed by a write publish one batch, the captures of those updates with their times in order as header; the plugin is then back at the empty batch |
| KeyUniqueness.WalkDistinct | test.js:336-374 | the walk of a well-formed subtree yields pairs with pairwise distinct keys, and, below a non-empty walked path, every key lies under that path |
| KeyUniqueness.ExtractDistinct | test.js:336-374 | one extraction from a store whose owner subtree is well formed has pairwise distinct keys, whatever the filter |
| Plugin.StepKeepsBounded | test.js:100-207 | one signal on well-formed stores keeps every series of the batch no longer than its header, and any batch it publishes is bounded the same way |
| Plugin.RunKeepsBounded | test.js:100-207 | a run of signals over well-formed stores keeps the batch bounded and publishes only bounded batches |
| Plugin.PublishedSeriesLength | test.js:100-151 | updates followed by a write publish one batch with one timestamp per update, and each key's series holds one value per update in which the key appeared |
| Plugin.WriteAfterWrite | test.js:201-207 | a write with no update since the previous write publishes the empty batch |
| Scenarios.PublishData | test.js:82-98 | publish-data: one batch whose header is the capture time and whose only series is the wind speed from test-source, holding 0 |
| Scenarios.PublishTwoTimes | test.js:100-124 | publish-two-times: two updates a millisecond apart publish both times and the value twice |
| Scenarios.PublishTwoMetrics | test.js:126-151 | publish-two-metrics: two paths over two captures each get a series of two values |
| Scenarios.ChangingValue | test.js:153-179 | changing-value: the second capture's changed value goes after the first value, which stays |
| Scenarios.ResetBatchAfterWrite | test.js:181-207 | reset-batch-after-write: the first write publishes the capture, the second the empty batch |
| Scenarios.PublishDataWithObjectValues | test.js:210-227 | publish-data-with-object-values: a position becomes `longitude` and `latitude` keys |
| Scenarios.SubFieldPatternSelectsNothing | test.js:210-227 | the position of this case is filtered as a whole by its base path: an include pattern naming its `longitude` field, or `navigation.position.*`, keeps none of its keys (the model's choice; no test filters a composite) |
| Scenarios.IncludeNothing | test.js:229-249 | include-nothing: the header still holds the time; data is empty |
| Scenarios.IncludeOneMetric | test.js:251-270 | include-one-metric: only the included path's key is published |
| Scenarios.ExcludeOneMetric | test.js:272-291 | exclude-one-metric: every key but the excluded path's is published |
| Scenarios.GlobRejectsOthers | test.js:315-334 | `environment.*` does not match `navigation.speedThroughWater`; it also rejects `environment2.x`, an edge case of this model that the tests do not exercise |
| Scenarios.GlobSelection | test.js:293-334 | under `environment.*`, include selects the two wind paths only and exclude the navigation path only |
| Scenarios.GlobInclude | test.js:293-313 | glob-include: only the `environment` keys are published |
| Scenarios.GlobExclude | test.js:315-334 | glob-exclude: only the key of `navigation.speedThroughWater` from test-source is published |
| Scenarios.TwoSources | test.js:336-353 | two-sources: one key per source, each with its own value |
| Scenarios.TwoSourcesObjectValue | test.js:355-374 | two-sources-object-value: four keys, one per field and source |

## Left out

- `index.js`, the plugin itself, is not part of this model. The behaviour is the one the test suite pins down; where the tests leave a rule open, the model makes a choice and the line below names it.
- Only the wildcard form `prefix.*` is modelled; a bare trailing `*` is not. The wildcard selects paths strictly below the prefix, so `environment.*` does not select `environment` itself; the tests use only `environment.*`.
- The host lifecycle is not modelled: `start`/`stop`, registration of the update and write callbacks, the interval triggers and the publish callback. The two signals become the `Update` and `Write` events, and the publish callback becomes `Run`'s output sequence.
- The clock and the store accessor become parameters of each update event.
- Loading fixtures from JSON, deep copying and the assertion library are not modelled. The scenarios' stores are rebuilt from the values the cases expect, because the JSON fixture files are not part of this model.
- The owner identifier is taken as given. In the store, `self` holds `vessels.<id>`, and the identifier is the second dot-separated field of `self`, as `split('.')[1]` takes it (test.js:56); that split is not modelled.
- Measurement values are opaque. Floating-point semantics do not matter because values are only copied.
- No padding is modelled for a key that first appears in the middle of a batch. Its series simply starts at its first capture, and `Accumulator.SeriesCountsAppearances` states the resulting length. No test covers that case.
- Snapshot.Walk: distinct keys are proved only for well-formed stores (`KeyUniqueness.WellFormedOwner`). A tree with a dotted or repeated child name, a repeated source, or a source holding the bar separator can repeat a key, as `Scenarios.AmbiguousNamesRepeatKey` shows, and no guarantee is stated for it.
- Filtering once per base path is assumed; test.js does not distinguish it from per-key filtering, so a pattern naming a sub-field or a path below a composite selects nothing, as `Scenarios.SubFieldPatternSelectsNothing` states.
- A store with no subtree for the owner yields no pairs; the update still records its timestamp. This is a choice of the model, and no test covers it.
- A composite nested inside a composite is flattened recursively to `"<path>.<field>.<field>|<source>"`. This is a choice of the model: every composite in the tests is flat.
- A malformed pattern is modelled only as the empty pattern, which never matches. No other malformed form is described.

=== FILE: batch.dfy ===
/** The in-progress batch: a header of capture timestamps and, per metric key,
    the series of values captured for it. A capture appends its timestamp to
    the header and each extracted value to its key's series; a flush hands the
    batch over and starts again from the empty batch.

    No padding is modelled: a key absent from a capture simply gets no value
    for it, so a series holds one value per capture in which its key appeared.
 */
module Accumulator {
  import opened Snapshot

  datatype Batch<T, V> = Batch(header: seq<T>, data: map<string, seq<V>>)

  /** One sampling event: its timestamp and the pairs extracted at it. */
  datatype Sample<T, V> = Sample(time: T, pairs: seq<Pair<V>>)

  function Empty<T, V>(): Batch<T, V> {
    Batch([], map[])
  }

  /** The series of `key`, empty when the key has not been seen. */
  function Series<V>(data: map<string, seq<V>>, key: string): seq<V> {
    if key in data then data[key] else []
  }

  /** The values `pairs` holds for `key`, in order. */
  function ValuesFor<V>(pairs: seq<Pair<V>>, key: string): seq<V> {
    if pairs == [] then []
    else (if pairs[0].key == key then [pairs[0].value] else []) + ValuesFor(pairs[1..], key)
  }

  /** The keys the pairs mention. */
  function KeysOf<V>(pairs: seq<Pair<V>>): set<string> {
    if pairs == [] then {} else {pairs[0].key} + KeysOf(pairs[1..])
  }

  /** A key is among those of the pairs iff some pair carries it. */
  lemma {:induction false} KeysOfSpec<V>(pairs: seq<Pair<V>>, key: string)
    ensures key in KeysOf(pairs) <==> exists i :: 0 <= i < |pairs| && pairs[i].key == key
  {
    if pairs != [] {
      KeysOfSpec(pairs[1..], key);
      if exists i :: 0 <= i < |pairs| && pairs[i].key == key {
        var i :| 0 <= i < |pairs| && pairs[i].key == key;
        if i > 0 {
          assert pairs[1..][i - 1] == pairs[i];
        }
      }
      if key in KeysOf(pairs[1..]) {
        var i :| 0 <= i < |pairs[1..]| && pairs[1..][i].key == key;
        assert pairs[i + 1] == pairs[1..][i];
      }
    }
  }

  /** No key occurs twice among the pairs of one capture. */
  predicate DistinctKeys<V>(pairs: seq<Pair<V>>) {
    forall i, j :: 0 <= i < j < |pairs| ==> pairs[i].key != pairs[j].key
  }

  /** Every series is at most as long as the header. */
  predicate Bounded<T, V>(b: Batch<T, V>) {
    forall key :: key in b.data ==> |b.data[key]| <= |b.header|
  }

  /** Append each pair's value to its key's series in pair order, creating the
      series of a key seen for the first time. */
  function AppendAll<V>(data: map<string, seq<V>>, pairs: seq<Pair<V>>): map<string, seq<V>>
    decreases |pairs|
  {
    if pairs == [] then data
    else AppendAll(data[pairs[0].key := Series(data, pairs[0].key) + [pairs[0].value]], pairs[1..])
  }

  /** Each key's series grows by exactly the values the pairs hold for it, in order. */
  lemma {:induction false} AppendAllSeries<V>(data: map<string, seq<V>>, pairs: seq<Pair<V>>, key: string)
    ensures Series(AppendAll(data, pairs), key) == Series(data, key) + ValuesFor(pairs, key)
    decreases |pairs|
  {
    if pairs == [] {
      assert Series(data, key) + [] == Series(data, key);
    } else {
      var head := pairs[0];
      var next := data[head.key := Series(data, head.key) + [head.value]];
      assert AppendAll(data, pairs) == AppendAll(next, pairs[1..]);
      AppendAllSeries(next, pairs[1..], key);
      var mine := if head.key == key then [head.value] else [];
      if head.key == key {
        assert Series(next, key) == Series(data, key) + mine;
      } else {
        assert Series(next, key) == Series(data, key) + mine by {
          assert Series(data, key) + [] == Series(data, key);
        }
      }
      assert ValuesFor(pairs, key) == mine + ValuesFor(pairs[1..], key);
    }
  }

  /** The tracked keys are the old ones plus those of the pairs. */
  lemma {:induction false} AppendAllKeys<V>(data: map<string, seq<V>>, pairs: seq<Pair<V>>)
    ensures AppendAll(data, pairs).Keys == data.Keys + KeysOf(pairs)
    decreases |pairs|
  {
    if pairs != [] {
      var next := data[pairs[0].key := Series(data, pairs[0].key) + [pairs[0].value]];
      AppendAllKeys(next, pairs[1..]);
    }
  }

  /** One capture: the timestamp goes to the end of the header and every
      extracted value to the end of its key's series. */
  function Capture<T, V>(b: Batch<T, V>, now: T, pairs: seq<Pair<V>>): (captured: Batch<T, V>) {
    Batch(b.header + [now], AppendAll(b.data, pairs))
  }

  /** A capture adds its timestamp after the earlier ones, tracks the keys of
      its pairs besides the earlier keys, and grows each key's series by the
      values the pairs hold for it, leaving the earlier entries in place. */
  lemma CaptureContents<T, V>(b: Batch<T, V>, now: T, pairs: seq<Pair<V>>, key: string)
    ensures Capture(b, now, pairs).header == b.header + [now]
    ensures key in Capture(b, now, pairs).data <==> key in b.data || key in KeysOf(pairs)
    ensures Series(Capture(b, now, pairs).data, key) == Series(b.data, key) + ValuesFor(pairs, key)
  {
    AppendAllKeys(b.data, pairs);
    AppendAllSeries(b.data, pairs, key);
  }

  /** A capture in which nothing was extracted still records its timestamp and
      leaves every series as it was. */
  lemma CaptureNothing<T, V>(b: Batch<T, V>, now: T)
    ensures Capture(b, now, []) == Batch(b.header + [now], b.data)
  {
  }

  /** Hand the batch over and start again empty: (published, next). */
  function Flush<T, V>(b: Batch<T, V>): (flushed: (Batch<T, V>, Batch<T, V>)) {
    (b, Empty())
  }

  /** A flush right after a flush publishes the empty batch. */
  lemma FlushTwice<T, V>(b: Batch<T, V>)
    ensures Flush(Flush(b).1).0 == Batch([], map[])
    ensures Flush(b).0 == b
  {
  }

  /** When keys are distinct, a capture holds at most one value per key. */
  lemma {:induction false} DistinctKeysAtMostOne<V>(pairs: seq<Pair<V>>, key: string)
    requires DistinctKeys(pairs)
    ensures |ValuesFor(pairs, key)| <= 1
    ensures key !in KeysOf(pairs) <==> ValuesFor(pairs, key) == []
  {
    if pairs != [] {
      assert DistinctKeys(pairs[1..]) by {
        forall i, j | 0 <= i < j < |pairs[1..]|
          ensures pairs[1..][i].key != pairs[1..][j].key
        {
          assert pairs[1..][i] == pairs[i + 1] && pairs[1..][j] == pairs[j + 1];
        }
      }
      DistinctKeysAtMostOne(pairs[1..], key);
      if pairs[0].key == key {
        forall i | 0 <= i < |pairs[1..]| ensures pairs[1..][i].key != key {
          assert pairs[1..][i] == pairs[i + 1];
        }
        KeysOfSpec(pairs[1..], key);
        assert key !in KeysOf(pairs[1..]);
      }
    }
  }

  /** A capture with distinct keys keeps every series within the header. */
  lemma CapturePreservesBounded<T, V>(b: Batch<T, V>, now: T, pairs: seq<Pair<V>>)
    requires Bounded(b) && DistinctKeys(pairs)
    ensures Bounded(Capture(b, now, pairs))
  {
    var r := Capture(b, now, pairs);
    forall key | key in r.data
      ensures |r.data[key]| <= |r.header|
    {
      CaptureContents(b, now, pairs, key);
      DistinctKeysAtMostOne(pairs, key);
      assert r.data[key] == Series(r.data, key);
    }
  }

  /** Captures applied in order, from `b`. */
  function CaptureAll<T, V>(b: Batch<T, V>, samples: seq<Sample<T, V>>): Batch<T, V>
    decreases |samples|
  {
    if samples == [] then b
    else CaptureAll(Capture(b, samples[0].time, samples[0].pairs), samples[1..])
  }

  /** The timestamps of the samples, in order. */
  function Times<T, V>(samples: seq<Sample<T, V>>): seq<T> {
    if samples == [] then [] else [samples[0].time] + Times(samples[1..])
  }

  /** The values the samples hold for `key`, capture after capture. */
  function History<T, V>(samples: seq<Sample<T, V>>, key: string): seq<V> {
    if samples == [] then []
    else ValuesFor(samples[0].pairs, key) + History(samples[1..], key)
  }

  /** The number of samples in which `key` appears. */
  function Appearances<T, V>(samples: seq<Sample<T, V>>, key: string): nat {
    if samples == [] then 0
    else (if ValuesFor(samples[0].pairs, key) != [] then 1 else 0) + Appearances(samples[1..], key)
  }

  /** After a run of captures the header lists their timestamps in call order. */
  lemma {:induction false} CaptureAllHeader<T, V>(b: Batch<T, V>, samples: seq<Sample<T, V>>)
    ensures CaptureAll(b, samples).header == b.header + Times(samples)
    ensures |CaptureAll(b, samples).header| == |b.header| + |samples|
    decreases |samples|
  {
    if samples == [] {
      assert b.header + [] == b.header;
    } else {
      var c := Capture(b, samples[0].time, samples[0].pairs);
      assert CaptureAll(b, samples) == CaptureAll(c, samples[1..]);
      CaptureAllHeader(c, samples[1..]);
      assert Times(samples) == [samples[0].time] + Times(samples[1..]);
      assert b.header + Times(samples) == (b.header + [samples[0].time]) + Times(samples[1..]);
    }
  }

  /** After a run of captures each series has grown by its key's values, in
      capture order; what it held before is left in place. */
  lemma {:induction false} CaptureAllSeries<T, V>(b: Batch<T, V>, samples: seq<Sample<T, V>>, key: string)
    ensures Series(CaptureAll(b, samples).data, key) == Series(b.data, key) + History(samples, key)
    decreases |samples|
  {
    if samples == [] {
      assert Series(b.data, key) + [] == Series(b.data, key);
    } else {
      var c := Capture(b, samples[0].time, samples[0].pairs);
      var last := CaptureAll(c, samples[1..]);
      assert CaptureAll(b, samples) == last;
      CaptureAllSeries(c, samples[1..], key);
      CaptureContents(b, samples[0].time, samples[0].pairs, key);
      var before, now, later := Series(b.data, key), ValuesFor(samples[0].pairs, key), History(samples[1..], key);
      assert Series(c.data, key) == before + now;
      assert History(samples, key) == now + later;
      assert Series(last.data, key) == (before + now) + later == before + (now + later);
    }
  }

  /** When each capture holds at most one value for `key`, its series length is
      the number of captures it appeared in, and never exceeds the header. */
  lemma {:induction false} HistoryLength<T, V>(samples: seq<Sample<T, V>>, key: string)
    requires forall i :: 0 <= i < |samples| ==> |ValuesFor(samples[i].pairs, key)| <= 1
    ensures |History(samples, key)| == Appearances(samples, key) <= |samples|
  {
    if samples != [] {
      assert |ValuesFor(samples[0].pairs, key)| <= 1;
      forall i | 0 <= i < |samples[1..]|
        ensures |ValuesFor(samples[1..][i].pairs, key)| <= 1
      {
        assert samples[1..][i] == samples[i + 1];
      }
      HistoryLength(samples[1..], key);
    }
  }

  lemma SeriesCountsAppearances<T, V>(samples: seq<Sample<T, V>>, key: string)
    requires forall i :: 0 <= i < |samples| ==> DistinctKeys(samples[i].pairs)
    ensures var b := CaptureAll(Empty(), samples);
            |Series(b.data, key)| == Appearances(samples, key) <= |b.header|
  {
    forall i | 0 <= i < |samples|
      ensures |ValuesFor(samples[i].pairs, key)| <= 1
    {
      DistinctKeysAtMostOne(samples[i].pairs, key);
    }
    HistoryLength(samples, key);
    CaptureAllHeader(Empty(), samples);
    CaptureAllSeries(Empty(), samples, key);
  }

  /** A key that holds exactly one value at every capture has a series aligned
      with the header: entry i is the value captured at timestamp i. */
  lemma {:induction false} HistoryAligned<T, V>(samples: seq<Sample<T, V>>, key: string, values: seq<V>)
    requires |values| == |samples|
    requires forall i :: 0 <= i < |samples| ==> ValuesFor(samples[i].pairs, key) == [values[i]]
    ensures History(samples, key) == values
  {
    if samples != [] {
      forall i | 0 <= i < |samples[1..]|
        ensures ValuesFor(samples[1..][i].pairs, key) == [values[1..][i]]
      {
        assert samples[1..][i] == samples[i + 1];
      }
      HistoryAligned(samples[1..], key, values[1..]);
      assert values == [values[0]] + values[1..];
    }
  }

  lemma SeriesAligned<T, V>(samples: seq<Sample<T, V>>, key: string, values: seq<V>)
    requires |values| == |samples|
    requires forall i :: 0 <= i < |samples| ==> ValuesFor(samples[i].pairs, key) == [values[i]]
    ensures var b := CaptureAll(Empty(), samples);
            Series(b.data, key) == values && |b.header| == |values|
  {
    HistoryAligned(samples, key, values);
    CaptureAllHeader(Empty(), samples);
    CaptureAllSeries(Empty(), samples, key);
  }
}

=== FILE: key_uniqueness.dfy ===
/** Distinct metric keys within one snapshot.

    Two different leaves of the owner's tree can only share a key when names
    are ambiguous: a child named `a.b` next to a branch `a` holding `b`, two
    children or fields with one name, or one source listed twice. A store free
    of that ambiguity is well formed, and its extraction never repeats a key,
    whatever the filter.
 */
module KeyUniqueness {
  import opened PathFilter
  import opened Snapshot
  import opened Accumulator

  /** A name fit to be one path segment or field: non-empty and free of both
      separators. */
  predicate Segment(name: string) {
    name != [] && '.' !in name && '|' !in name
  }

  predicate WellFormedReading<V>(r: Reading<V>)
    decreases r
  {
    match r
    case Composite(fields) => WellFormedFields(fields)
    case _ => true
  }

  /** Field names are segments and pairwise different; every field is well formed. */
  predicate WellFormedFields<V>(fields: seq<Field<V>>)
    decreases fields
  {
    && (forall i :: 0 <= i < |fields| ==> Segment(fields[i].name) && WellFormedReading(fields[i].reading))
    && (forall i, j :: 0 <= i < j < |fields| ==> fields[i].name != fields[j].name)
  }

  /** Sources hold no `|` and are pairwise different; every reading is well formed. */
  predicate WellFormedSources<V>(readings: seq<SourceReading<V>>) {
    && (forall i :: 0 <= i < |readings| ==>
          '|' !in readings[i].source && WellFormedReading(readings[i].reading))
    && (forall i, j :: 0 <= i < j < |readings| ==> readings[i].source != readings[j].source)
  }

  predicate WellFormedNode<V>(node: Node<V>)
    decreases node
  {
    match node
    case Branch(children) => WellFormedChildren(children)
    case Simple(source, reading) => '|' !in source && WellFormedReading(reading)
    case MultiSource(readings) => WellFormedSources(readings)
  }

  /** Child names are segments and pairwise different; every child is well formed. */
  predicate WellFormedChildren<V>(children: seq<Child<V>>)
    decreases children
  {
    && (forall i :: 0 <= i < |children| ==> Segment(children[i].name) && WellFormedNode(children[i].node))
    && (forall i, j :: 0 <= i < j < |children| ==> children[i].name != children[j].name)
  }

  /** The owner's subtree, when there is one, is well formed. */
  predicate WellFormedOwner<V>(store: Store<V>, owner: string) {
    owner in store.vessels ==> WellFormedNode(store.vessels[owner])
  }

  /** `key` lies below `prefix`: it continues it with a field (`.`) or a source (`|`). */
  predicate Under(prefix: string, key: string) {
    |key| > |prefix| && key[..|prefix|] == prefix && (key[|prefix|] == '.' || key[|prefix|] == '|')
  }

  /** `key` names `source` after its final `|`. */
  predicate FromSource(key: string, source: string) {
    |key| > |source| && key[|key| - |source| - 1] == '|' && key[|key| - |source|..] == source
  }

  /** Pairs that keep their keys apart. */
  predicate Apart<V>(a: seq<Pair<V>>, b: seq<Pair<V>>) {
    forall i, j :: 0 <= i < |a| && 0 <= j < |b| ==> a[i].key != b[j].key
  }

  lemma DistinctAppend<V>(a: seq<Pair<V>>, b: seq<Pair<V>>)
    requires DistinctKeys(a) && DistinctKeys(b) && Apart(a, b)
    ensures DistinctKeys(a + b)
  {
    var ab := a + b;
    forall i, j | 0 <= i < j < |ab| ensures ab[i].key != ab[j].key {
      if j < |a| {
        assert ab[i] == a[i] && ab[j] == a[j];
      } else if i >= |a| {
        assert ab[i] == b[i - |a|] && ab[j] == b[j - |a|];
      } else {
        assert ab[i] == a[i] && ab[j] == b[j - |a|];
      }
    }
  }

  /** Below a child is below its parent. */
  lemma UnderChild(path: string, name: string, key: string)
    requires Under(path + "." + name, key)
    ensures Under(path, key)
  {
    var ext := path + "." + name;
    assert key[..|path|] == key[..|ext|][..|path|] == ext[..|path|] == path;
    assert key[|path|] == key[..|ext|][|path|] == ext[|path|] == '.';
  }

  /** Nothing lies below two different segments that follow one prefix. */
  lemma SegmentsApart(prefix: string, a: string, b: string, key: string)
    requires Segment(a) && Segment(b) && a != b
    requires Under(prefix + a, key)
    ensures !Under(prefix + b, key)
  {
    if Under(prefix + b, key) {
      var n := |prefix|;
      if |a| == |b| {
        assert key[..n + |a|] == prefix + a;
        CommonPrefix(prefix, a, b);
      }
    }
  }

  lemma CommonPrefix(prefix: string, a: string, b: string)
    requires prefix + a == prefix + b
    ensures a == b
  {
    assert a == (prefix + a)[|prefix|..];
    assert b == (prefix + b)[|prefix|..];
  }

  /** The same, for the dotted paths of two differently named children. */
  lemma ChildrenApart(path: string, a: string, b: string, key: string)
    requires Segment(a) && Segment(b) && a != b
    requires Under(Join(path, a), key)
    ensures !Under(Join(path, b), key)
  {
    if path == [] {
      assert Join(path, a) == [] + a && Join(path, b) == [] + b;
      SegmentsApart([], a, b, key);
    } else {
      SegmentsApart(path + ".", a, b, key);
    }
  }

  /** A key names one source only. */
  lemma SourcesApart(key: string, s: string, t: string)
    requires '|' !in s && '|' !in t && s != t
    requires FromSource(key, s)
    ensures !FromSource(key, t)
  {

  }

  /** Every key a reading emits lies below its path and names its source. */
  lemma {:induction false} EmitShape<V>(path: string, source: string, r: Reading<V>)
    ensures forall p | p in Emit(path, source, r) :: Under(path, p.key) && FromSource(p.key, source)
    decreases r
  {
    match r
    case Number(v) =>
      var k := Key(path, source);
      assert k[..|path|] == path && k[|path|] == '|';
      assert k[|k| - |source|..] == source;
    case NonNumeric =>
    case Composite(fields) =>
      EmitFieldsShape(path, source, fields);
  }

  lemma {:induction false} EmitFieldsShape<V>(path: string, source: string, fields: seq<Field<V>>)
    ensures forall p | p in EmitFields(path, source, fields) :: Under(path, p.key) && FromSource(p.key, source)
    decreases fields
  {
    if fields != [] {
      var head := Emit(path + "." + fields[0].name, source, fields[0].reading);
      EmitShape(path + "." + fields[0].name, source, fields[0].reading);
      EmitFieldsShape(path, source, fields[1..]);
      assert EmitFields(path, source, fields) == head + EmitFields(path, source, fields[1..]);
      forall p | p in head ensures Under(path, p.key) {
        UnderChild(path, fields[0].name, p.key);
      }
    }
  }

  /** Fields named other than `name` emit nothing below `path.name`. */
  lemma {:induction false} EmitFieldsAvoid<V>(path: string, source: string, fields: seq<Field<V>>, name: string)
    requires Segment(name)
    requires forall i :: 0 <= i < |fields| ==> Segment(fields[i].name) && fields[i].name != name
    ensures forall p | p in EmitFields(path, source, fields) :: !Under(path + "." + name, p.key)
    decreases fields
  {
    if fields != [] {
      var head := Emit(path + "." + fields[0].name, source, fields[0].reading);
      EmitShape(path + "." + fields[0].name, source, fields[0].reading);
      assert forall i :: 0 <= i < |fields[1..]| ==> fields[1..][i] == fields[i + 1];
      EmitFieldsAvoid(path, source, fields[1..], name);
      assert EmitFields(path, source, fields) == head + EmitFields(path, source, fields[1..]);
      forall p | p in head ensures !Under(path + "." + name, p.key) {
        SegmentsApart(path + ".", fields[0].name, name, p.key);
      }
    }
  }

  /** A well-formed reading emits each key once. */
  lemma {:induction false} EmitDistinct<V>(path: string, source: string, r: Reading<V>)
    requires WellFormedReading(r)
    ensures DistinctKeys(Emit(path, source, r))
    decreases r
  {
    match r
    case Number(v) =>
    case NonNumeric =>
    case Composite(fields) =>
      EmitFieldsDistinct(path, source, fields);
  }

  lemma {:induction false} EmitFieldsDistinct<V>(path: string, source: string, fields: seq<Field<V>>)
    requires WellFormedFields(fields)
    ensures DistinctKeys(EmitFields(path, source, fields))
    decreases fields
  {
    if fields != [] {
      var name := fields[0].name;
      var rest := fields[1..];
      var head := Emit(path + "." + name, source, fields[0].reading);
      var tail := EmitFields(path, source, rest);
      assert forall i :: 0 <= i < |rest| ==> rest[i] == fields[i + 1];
      EmitDistinct(path + "." + name, source, fields[0].reading);
      EmitFieldsDistinct(path, source, rest);
      EmitShape(path + "." + name, source, fields[0].reading);
      EmitFieldsAvoid(path, source, rest, name);
      DistinctAppend(head, tail);
      assert EmitFields(path, source, fields) == head + tail;
    }
  }

  /** Every key the sources emit lies below the measurement's path. */
  lemma {:induction false} EmitSourcesUnder<V>(path: string, readings: seq<SourceReading<V>>)
    ensures forall p | p in EmitSources(path, readings) :: Under(path, p.key)
  {
    if readings != [] {
      EmitShape(path, readings[0].source, readings[0].reading);
      EmitSourcesUnder(path, readings[1..]);
    }
  }

  /** Sources other than `source` emit no key naming it. */
  lemma {:induction false} EmitSourcesAvoid<V>(path: string, readings: seq<SourceReading<V>>, source: string)
    requires '|' !in source
    requires forall i :: 0 <= i < |readings| ==> '|' !in readings[i].source && readings[i].source != source
    ensures forall p | p in EmitSources(path, readings) :: !FromSource(p.key, source)
  {
    if readings != [] {
      var head := Emit(path, readings[0].source, readings[0].reading);
      EmitShape(path, readings[0].source, readings[0].reading);
      assert forall i :: 0 <= i < |readings[1..]| ==> readings[1..][i] == readings[i + 1];
      EmitSourcesAvoid(path, readings[1..], source);
      forall p | p in head ensures !FromSource(p.key, source) {
        SourcesApart(p.key, readings[0].source, source);
      }
    }
  }

  /** Well-formed sources of one measurement emit each key once. */
  lemma {:induction false} EmitSourcesDistinct<V>(path: string, readings: seq<SourceReading<V>>)
    requires WellFormedSources(readings)
    ensures DistinctKeys(EmitSources(path, readings))
  {
    if readings != [] {
      var source := readings[0].source;
      var rest := readings[1..];
      var head := Emit(path, source, readings[0].reading);
      var tail := EmitSources(path, rest);
      assert forall i :: 0 <= i < |rest| ==> rest[i] == readings[i + 1];
      EmitDistinct(path, source, readings[0].reading);
      EmitSourcesDistinct(path, rest);
      EmitShape(path, source, readings[0].reading);
      EmitSourcesAvoid(path, rest, source);
      DistinctAppend(head, tail);
      assert EmitSources(path, readings) == head + tail;
    }
  }

  /** Below a non-empty path, every extracted key lies below that path. */
  lemma {:induction false} WalkUnder<V>(node: Node<V>, path: string, f: FilterSpec)
    requires path != []
    ensures forall p | p in Walk(node, path, f) :: Under(path, p.key)
    decreases node
  {
    match node
    case Branch(children) =>
      WalkChildrenUnder(children, path, f);
    case _ =>
      EmitSourcesUnder(path, Readings(node));
  }

  lemma {:induction false} WalkChildrenUnder<V>(children: seq<Child<V>>, path: string, f: FilterSpec)
    requires path != []
    ensures forall p | p in WalkChildren(children, path, f) :: Under(path, p.key)
    decreases children
  {
    if children != [] {
      var name := children[0].name;
      var head := Walk(children[0].node, Join(path, name), f);
      WalkUnder(children[0].node, Join(path, name), f);
      WalkChildrenUnder(children[1..], path, f);
      assert WalkChildren(children, path, f) == head + WalkChildren(children[1..], path, f);
      forall p | p in head ensures Under(path, p.key) {
        UnderChild(path, name, p.key);
      }
    }
  }

  /** Children named other than `name` yield nothing below `path.name`. */
  lemma {:induction false} WalkChildrenAvoid<V>(children: seq<Child<V>>, path: string, f: FilterSpec, name: string)
    requires Segment(name)
    requires forall i :: 0 <= i < |children| ==> Segment(children[i].name) && children[i].name != name
    ensures forall p | p in WalkChildren(children, path, f) :: !Under(Join(path, name), p.key)
  {
    if children != [] {
      var first := children[0].name;
      var head := Walk(children[0].node, Join(path, first), f);
      WalkUnder(children[0].node, Join(path, first), f);
      assert forall i :: 0 <= i < |children[1..]| ==> children[1..][i] == children[i + 1];
      WalkChildrenAvoid(children[1..], path, f, name);
      assert WalkChildren(children, path, f) == head + WalkChildren(children[1..], path, f);
      forall p | p in head ensures !Under(Join(path, name), p.key) {
        ChildrenApart(path, first, name, p.key);
      }
    }
  }

  /** A well-formed subtree yields each key once, whatever the filter; below
      a non-empty path every key lies under that path. */
  lemma {:induction false} WalkDistinct<V>(node: Node<V>, path: string, f: FilterSpec)
    requires WellFormedNode(node)
    ensures DistinctKeys(Walk(node, path, f))
    ensures path != [] ==> forall p | p in Walk(node, path, f) :: Under(path, p.key)
    decreases node
  {
    if path != [] {
      WalkUnder(node, path, f);
    }
    match node
    case Branch(children) =>
      WalkChildrenDistinct(children, path, f);
    case Simple(source, reading) =>
      EmitSourcesDistinct(path, Readings(node));
    case MultiSource(readings) =>
      EmitSourcesDistinct(path, readings);
  }

  lemma {:induction false} WalkChildrenDistinct<V>(children: seq<Child<V>>, path: string, f: FilterSpec)
    requires WellFormedChildren(children)
    ensures DistinctKeys(WalkChildren(children, path, f))
    decreases children
  {
    if children != [] {
      var name := children[0].name;
      var rest := children[1..];
      var head := Walk(children[0].node, Join(path, name), f);
      var tail := WalkChildren(rest, path, f);
      assert forall i :: 0 <= i < |rest| ==> rest[i] == children[i + 1];
      WalkDistinct(children[0].node, Join(path, name), f);
      WalkChildrenDistinct(rest, path, f);
      WalkUnder(children[0].node, Join(path, name), f);
      WalkChildrenAvoid(rest, path, f, name);
      DistinctAppend(head, tail);
      assert WalkChildren(children, path, f) == head + tail;
    }
  }

  /** The extraction from a well-formed owner subtree never repeats a key. */
  lemma ExtractDistinct<V>(store: Store<V>, owner: string, f: FilterSpec)
    requires WellFormedOwner(store, owner)
    ensures DistinctKeys(Extract(store, owner, f))
  {
    if owner in store.vessels {
      WalkDistinct(store.vessels[owner], "", f);
    }
  }
}

=== FILE: path_filter.dfy ===
/** Selection of measurement paths by the plugin's `filter_list_type` /
    `filter_list` options.

    A pattern is either an exact dotted path (`environment.wind.speedApparent`)
    or a trailing wildcard `prefix.*`, which selects every path strictly below
    `prefix` (one or more further segments). Under `Include` a path is kept
    when some pattern matches it; under `Exclude` when none does.
 */
module PathFilter {

  datatype Mode = Include | Exclude

  datatype FilterSpec = FilterSpec(mode: Mode, patterns: seq<string>)

  /** A pattern ending in `.*` is a wildcard over the descendants of its stem. */
  predicate IsGlob(pattern: string) {
    |pattern| >= 2 && pattern[|pattern| - 2] == '.' && pattern[|pattern| - 1] == '*'
  }

  /** Does one pattern select `path`? The empty pattern selects nothing. */
  predicate Matches(pattern: string, path: string) {
    if pattern == [] then false
    else if IsGlob(pattern) then
      // the stem keeps its trailing dot, so `environment.*` cannot match `environment2.x`
      var stem := pattern[..|pattern| - 1];
      |stem| < |path| && path[..|stem|] == stem
    else
      path == pattern
  }

  /** Some pattern of the list matches `path`. */
  predicate AnyMatch(patterns: seq<string>, path: string) {
    exists i :: 0 <= i < |patterns| && Matches(patterns[i], path)
  }

  /** The filter's verdict on a base path (before source / sub-field expansion). */
  predicate Selected(f: FilterSpec, path: string) {
    match f.mode
    case Include => AnyMatch(f.patterns, path)
    case Exclude => !AnyMatch(f.patterns, path)
  }

  /** The filter's verdict, by a scan of the list that stops at the first match. */
  method IsSelected(f: FilterSpec, path: string) returns (selected: bool)
    ensures selected <==> Selected(f, path)
    ensures f.mode == Include && f.patterns == [] ==> !selected
    ensures f.mode == Exclude && f.patterns == [] ==> selected
  {
    var found := false;
    var i := 0;
    while i < |f.patterns| && !found
      invariant 0 <= i <= |f.patterns|
      invariant found <==> exists j :: 0 <= j < i && Matches(f.patterns[j], path)
      decreases |f.patterns| - i
    {
      found := Matches(f.patterns[i], path);
      i := i + 1;
    }
    selected := if f.mode == Include then found else !found;
  }

  /** A wildcard `prefix.*` matches exactly the paths `prefix.<rest>` with a non-empty rest. */
  lemma GlobMatchesDescendants(prefix: string, path: string)
    ensures Matches(prefix + ".*", path) <==>
            exists rest :: |rest| > 0 && path == prefix + "." + rest
  {
    var pattern := prefix + ".*";
    assert IsGlob(pattern);
    var stem := pattern[..|pattern| - 1];
    assert stem == prefix + ".";
    if Matches(pattern, path) {
      var rest := path[|stem|..];
      assert path == stem + rest;
      assert path == prefix + "." + rest;
    }
    if exists rest :: |rest| > 0 && path == prefix + "." + rest {
      var rest :| |rest| > 0 && path == prefix + "." + rest;
      assert path == stem + rest;
      assert path[..|stem|] == stem;
    }
  }

  /** An exact (non-wildcard, non-empty) pattern matches its own path and nothing else. */
  lemma ExactMatchesOnlyItself(pattern: string, path: string)
    requires pattern != [] && !IsGlob(pattern)
    ensures Matches(pattern, path) <==> path == pattern
  {
  }

  /** Include and Exclude with the same list split every path between them. */
  lemma IncludeExcludeComplement(patterns: seq<string>, path: string)
    ensures Selected(FilterSpec(Include, patterns), path)
            <==> !Selected(FilterSpec(Exclude, patterns), path)
  {
  }

  /** The empty include list keeps nothing; the empty exclude list keeps everything. */
  lemma EmptyLists(path: string)
    ensures !Selected(FilterSpec(Include, []), path)
    ensures Selected(FilterSpec(Exclude, []), path)
  {
  }

  /** One exact pattern: include keeps that path only, exclude keeps all the others. */
  lemma SingleExactPattern(pattern: string, path: string)
    requires pattern != [] && !IsGlob(pattern)
    ensures Selected(FilterSpec(Include, [pattern]), path) <==> path == pattern
    ensures Selected(FilterSpec(Exclude, [pattern]), path) <==> path != pattern
  {
    ExactMatchesOnlyItself(pattern, path);
    assert AnyMatch([pattern], path) <==> Matches(pattern, path) by {
      if Matches(pattern, path) {
        assert Matches([pattern][0], path);
      }
    }
  }
}

=== FILE: plugin.dfy ===
/** The plugin as its host drives it: `start` fixes the owner and the filter
    and begins with an empty batch; each "update" signal extracts the owner's
    snapshot and captures it at the signal's time; each "write" signal
    publishes the batch and resets it. The clock and the measurement store are
    parameters of the update event; the publisher is the output sequence.
 */
module Plugin {
  import opened PathFilter
  import opened Snapshot
  import opened Accumulator
  import opened KeyUniqueness

  /** A value that may be absent: an unset setting, or the batch a signal does
      not publish. */
  datatype Option<+T> = None | Some(value: T)

  /** The filter settings a caller of `start` passes; either may be left unset. */
  datatype Options = Options(filterListType: Option<Mode>, filterList: Option<seq<string>>)

  /** The test harness fills unset settings in before `start` (exclude, and an
      empty list); the model folds that defaulting into `Start`. */
  function FilterOf(o: Options): FilterSpec {
    var mode := match o.filterListType case Some(m) => m case None => Exclude;
    var patterns := match o.filterList case Some(l) => l case None => [];
    FilterSpec(mode, patterns)
  }

  datatype State<T, V> = State(owner: string, filter: FilterSpec, batch: Batch<T, V>)

  datatype Event<T, V> =
    | Update(now: T, store: Store<V>)
    | Write

  function Start<T, V>(owner: string, o: Options): State<T, V> {
    State(owner, FilterOf(o), Empty())
  }

  /** React to one signal; a write also yields the batch it publishes. */
  function Step<T, V>(s: State<T, V>, e: Event<T, V>): (next: (State<T, V>, Option<Batch<T, V>>)) {
    match e
    case Update(now, store) =>
      (s.(batch := Capture(s.batch, now, Extract(store, s.owner, s.filter))), None)
    case Write =>
      var (published, next) := Flush(s.batch);
      (s.(batch := next), Some(published))
  }

  /** Feed a trace of signals; returns the final state and every published batch. */
  function Run<T, V>(s: State<T, V>, events: seq<Event<T, V>>): (run: (State<T, V>, seq<Batch<T, V>>))
    decreases |events|
  {
    if events == [] then (s, [])
    else
      var (s', out) := Step(s, events[0]);
      var (last, rest) := Run(s', events[1..]);
      (last, (if out.Some? then [out.value] else []) + rest)
  }

  /** The number of write signals in a trace. */
  function Writes<T, V>(events: seq<Event<T, V>>): nat {
    if events == [] then 0 else (if events[0].Write? then 1 else 0) + Writes(events[1..])
  }

  /** The update signals of a list of (time, store) readings. */
  function Updates<T, V>(readings: seq<(T, Store<V>)>): seq<Event<T, V>> {
    if readings == [] then [] else [Update(readings[0].0, readings[0].1)] + Updates(readings[1..])
  }

  /** What the accumulator is fed for those readings. */
  function SamplesOf<T, V>(s: State<T, V>, readings: seq<(T, Store<V>)>): seq<Sample<T, V>> {
    if readings == [] then []
    else [Sample(readings[0].0, Extract(readings[0].1, s.owner, s.filter))] + SamplesOf(s, readings[1..])
  }

  /** Owner and filter are fixed for the plugin's lifetime. */
  lemma {:induction false} RunKeepsSettings<T, V>(s: State<T, V>, events: seq<Event<T, V>>)
    ensures Run(s, events).0.owner == s.owner && Run(s, events).0.filter == s.filter
    decreases |events|
  {
    if events != [] {
      RunKeepsSettings(Step(s, events[0]).0, events[1..]);
    }
  }

  /** Running two traces back to back ends where running their concatenation does. */
  lemma {:induction false} RunAppendState<T, V>(s: State<T, V>, a: seq<Event<T, V>>, b: seq<Event<T, V>>)
    ensures Run(s, a + b).0 == Run(Run(s, a).0, b).0
    decreases |a|
  {
    if a == [] {
      assert a + b == b;
    } else {
      var next := Step(s, a[0]).0;
      assert (a + b)[0] == a[0];
      assert (a + b)[1..] == a[1..] + b;
      RunAppendState(next, a[1..], b);
      assert Run(s, a + b).0 == Run(next, a[1..] + b).0;
      assert Run(s, a).0 == Run(next, a[1..]).0;
    }
  }

  /** Running two traces back to back publishes what running their concatenation does. */
  lemma {:induction false} RunAppendOutput<T, V>(s: State<T, V>, a: seq<Event<T, V>>, b: seq<Event<T, V>>)
    ensures Run(s, a + b).1 == Run(s, a).1 + Run(Run(s, a).0, b).1
    decreases |a|
  {
    if a == [] {
      assert a + b == b;
    } else {
      var step := Step(s, a[0]);
      var head := if step.1.Some? then [step.1.value] else [];
      assert (a + b)[0] == a[0];
      assert (a + b)[1..] == a[1..] + b;
      RunAppendOutput(step.0, a[1..], b);
      var mid := Run(step.0, a[1..]);
      assert Run(s, a).0 == mid.0;
      var tail := Run(mid.0, b);
      assert Run(s, a + b).1 == head + (mid.1 + tail.1);
      assert Run(s, a).1 == head + mid.1;
      assert head + (mid.1 + tail.1) == (head + mid.1) + tail.1;
    }
  }

  /** Running two traces back to back is running their concatenation. */
  lemma RunAppend<T, V>(s: State<T, V>, a: seq<Event<T, V>>, b: seq<Event<T, V>>)
    ensures Run(s, a + b).0 == Run(Run(s, a).0, b).0
    ensures Run(s, a + b).1 == Run(s, a).1 + Run(Run(s, a).0, b).1
  {
    RunAppendState(s, a, b);
    RunAppendOutput(s, a, b);
  }

  /** Exactly one batch is published per write signal. */
  lemma {:induction false} OnePublishPerWrite<T, V>(s: State<T, V>, events: seq<Event<T, V>>)
    ensures |Run(s, events).1| == Writes(events)
    decreases |events|
  {
    if events != [] {
      OnePublishPerWrite(Step(s, events[0]).0, events[1..]);
    }
  }

  /** Update signals alone publish nothing and capture their readings in order. */
  lemma {:induction false} RunUpdates<T, V>(s: State<T, V>, readings: seq<(T, Store<V>)>)
    ensures Run(s, Updates(readings)).1 == []
    ensures Run(s, Updates(readings)).0 == s.(batch := CaptureAll(s.batch, SamplesOf(s, readings)))
    decreases |readings|
  {
    if readings != [] {
      var events := Updates(readings);
      var s' := Step(s, events[0]).0;
      assert events[1..] == Updates(readings[1..]);
      RunUpdates(s', readings[1..]);
      assert SamplesOf(s', readings[1..]) == SamplesOf(s, readings[1..]) by {
        SamplesOfSettings(s', s, readings[1..]);
      }
    }
  }

  lemma {:induction false} SamplesOfSettings<T, V>(s: State<T, V>, t: State<T, V>, readings: seq<(T, Store<V>)>)
    requires s.owner == t.owner && s.filter == t.filter
    ensures SamplesOf(s, readings) == SamplesOf(t, readings)
    decreases |readings|
  {
    if readings != [] {
      SamplesOfSettings(s, t, readings[1..]);
    }
  }

  /** A write after a run of updates publishes one batch whose header is the
      updates' times in order and whose series hold the extracted values in
      capture order; the plugin is then back to the empty batch. */
  lemma UpdatesThenWrite<T, V>(s: State<T, V>, readings: seq<(T, Store<V>)>)
    ensures var (last, published) := Run(s, Updates(readings) + [Write]);
            var batch := CaptureAll(s.batch, SamplesOf(s, readings));
            && published == [batch]
            && batch.header == s.batch.header + Times(SamplesOf(s, readings))
            && last == s.(batch := Batch([], map[]))
  {
    RunAppend(s, Updates(readings), [Write]);
    RunUpdates(s, readings);
    CaptureAllHeader(s.batch, SamplesOf(s, readings));
  }

  /** A write with no update since the previous write publishes the empty batch. */
  lemma WriteAfterWrite<T, V>(s: State<T, V>)
    ensures Run(s, [Write, Write]).1 == [s.batch, Batch([], map[])]
  {
  }

  /** Without settings the plugin keeps every path. */
  lemma DefaultsKeepEverything(path: string)
    ensures Selected(FilterOf(Options(None, None)), path)
  {
  }

  /** Every update of the trace reads a well-formed subtree for the owner. */
  predicate WellFormedUpdates<T, V>(owner: string, events: seq<Event<T, V>>) {
    forall i :: 0 <= i < |events| && events[i].Update? ==> WellFormedOwner(events[i].store, owner)
  }

  /** One signal keeps every series within the header, provided an update's
      store is well formed. */
  lemma StepKeepsBounded<T, V>(s: State<T, V>, e: Event<T, V>)
    requires Bounded(s.batch)
    requires e.Update? ==> WellFormedOwner(e.store, s.owner)
    ensures Bounded(Step(s, e).0.batch)
    ensures Step(s, e).1.Some? ==> Bounded(Step(s, e).1.value)
  {
    if e.Update? {
      ExtractDistinct(e.store, s.owner, s.filter);
      CapturePreservesBounded(s.batch, e.now, Extract(e.store, s.owner, s.filter));
    }
  }

  /** Over a trace of well-formed updates no series ever outgrows the header,
      in the plugin's batch or in any batch it publishes. */
  lemma {:induction false} RunKeepsBounded<T, V>(s: State<T, V>, events: seq<Event<T, V>>)
    requires Bounded(s.batch) && WellFormedUpdates(s.owner, events)
    ensures Bounded(Run(s, events).0.batch)
    ensures forall i :: 0 <= i < |Run(s, events).1| ==> Bounded(Run(s, events).1[i])
    decreases |events|
  {
    if events != [] {
      var (next, out) := Step(s, events[0]);
      StepKeepsBounded(s, events[0]);
      assert forall i :: 0 <= i < |events[1..]| ==> events[1..][i] == events[i + 1];
      RunKeepsBounded(next, events[1..]);
      var rest := Run(next, events[1..]).1;
      var published := (if out.Some? then [out.value] else []) + rest;
      assert Run(s, events).1 == published;
      forall i | 0 <= i < |published| ensures Bounded(published[i]) {
        if out.Some? && i == 0 {
        } else if out.Some? {
          assert published[i] == rest[i - 1];
        } else {
          assert published[i] == rest[i];
        }
      }
    }
  }

  /** The samples of a trace, reading by reading. */
  lemma {:induction false} SamplesOfAt<T, V>(s: State<T, V>, readings: seq<(T, Store<V>)>)
    ensures |SamplesOf(s, readings)| == |readings|
    ensures forall i :: 0 <= i < |readings| ==>
              SamplesOf(s, readings)[i] == Sample(readings[i].0, Extract(readings[i].1, s.owner, s.filter))
  {
    if readings != [] {
      SamplesOfAt(s, readings[1..]);
      assert forall i :: 1 <= i < |readings| ==> readings[1..][i - 1] == readings[i];
    }
  }

  /** From a fresh start, updates on well-formed stores followed by a write
      publish one batch in which each key's series holds one value per update
      whose extraction contained the key, and so never outgrows the header. */
  lemma PublishedSeriesLength<T, V>(owner: string, o: Options, readings: seq<(T, Store<V>)>, key: string)
    requires forall i :: 0 <= i < |readings| ==> WellFormedOwner(readings[i].1, owner)
    ensures var s: State<T, V> := Start(owner, o);
            var published := Run(s, Updates(readings) + [Write]).1;
            && |published| == 1
            && |published[0].header| == |readings|
            && |Series(published[0].data, key)| == Appearances(SamplesOf(s, readings), key) <= |readings|
  {
    var s: State<T, V> := Start(owner, o);
    var samples := SamplesOf(s, readings);
    SamplesOfAt(s, readings);
    forall i | 0 <= i < |samples| ensures DistinctKeys(samples[i].pairs) {
      ExtractDistinct(readings[i].1, owner, s.filter);
    }
    UpdatesThenWrite(s, readings);
    SeriesCountsAppearances(samples, key);
    CaptureAllHeader(s.batch, samples);
  }
}

=== FILE: scenarios.dfy ===
/** The test suite's cases, each as a lemma about the model. The stores are
    the measurement trees those cases load, rebuilt from the values the cases
    expect; timestamps are integers and values reals. */
module Scenarios {
  import opened PathFilter
  import opened Snapshot
  import opened Accumulator
  import opened Plugin
  import opened KeyUniqueness

  const Self: string := "urn:mrn:signalk:uuid:test-vessel"
  const T0: int := 1607203251539

  const SpeedKey: string := "environment.wind.speedApparent|test-source"
  const AngleKey: string := "environment.wind.angleApparent|test-source"

  function Vessel(root: seq<Child<real>>): Store<real> {
    Store(map[Self := Branch(root)])
  }

  function Wind(wind: seq<Child<real>>): Child<real> {
    Child("environment", Branch([Child("wind", Branch(wind))]))
  }

  function Speed(v: real): Child<real> {
    Child("speedApparent", Simple("test-source", Number(v)))
  }

  function Angle(v: real): Child<real> {
    Child("angleApparent", Simple("test-source", Number(v)))
  }

  function Navigation(nav: seq<Child<real>>): Child<real> {
    Child("navigation", Branch(nav))
  }

  function Point(lon: real, lat: real): Reading<real> {
    Composite([Field("longitude", Number(lon)), Field("latitude", Number(lat))])
  }

  /** test-apparent-wind-speed: environment.wind.speedApparent from test-source. */
  function WindSpeed(v: real): Store<real> {
    Vessel([Wind([Speed(v)])])
  }

  /** test-apparent-wind-speed-angle: apparent wind speed and angle. */
  function WindSpeedAngle(): Store<real> {
    Vessel([Wind([Speed(0.0), Angle(1.9799)])])
  }

  /** test-environment-and-navigation: the wind pair and navigation.speedThroughWater. */
  function EnvironmentAndNavigation(): Store<real> {
    Vessel([Wind([Speed(0.0), Angle(1.9799)]),
            Navigation([Child("speedThroughWater", Simple("test-source", Number(0.0)))])])
  }

  /** test-apparent-wind-speed-two-sources: one path, two sources. */
  function WindSpeedTwoSources(): Store<real> {
    Vessel([Wind([Child("speedApparent", MultiSource([SourceReading("test-source-1", Number(0.0)),
                                                      SourceReading("test-source-2", Number(0.5))]))])])
  }

  /** test-navigation-position: a composite position from test-source. */
  function Position(): Store<real> {
    Vessel([Navigation([Child("position", Simple("test-source", Point(-122.40, 47.67)))])])
  }

  /** test-navigation-position-two-sources: a composite position from two sources. */
  function PositionTwoSources(): Store<real> {
    Vessel([Navigation([Child("position", MultiSource([SourceReading("test-source-1", Point(-122.40, 47.67)),
                                                        SourceReading("test-source-2", Point(-122.50, 47.68))]))])])
  }

  const SpeedPath: string := "environment.wind.speedApparent"
  const AnglePath: string := "environment.wind.angleApparent"
  const WaterPath: string := "navigation.speedThroughWater"
  const PositionPath: string := "navigation.position"
  const WaterKey: string := "navigation.speedThroughWater|test-source"

  const NoOptions: Options := Options(None, None)
  const T1: int := T0 + 1

  /** Reading paths spelled out segment by segment. */
  lemma WindPaths()
    ensures Join("", "environment") == "environment"
    ensures Join("environment", "wind") == "environment.wind"
    ensures Join("environment.wind", "speedApparent") == SpeedPath
    ensures Join("environment.wind", "angleApparent") == AnglePath
  {
  }

  lemma NavigationPaths()
    ensures Join("", "navigation") == "navigation"
    ensures Join("navigation", "speedThroughWater") == WaterPath
    ensures Join("navigation", "position") == PositionPath
  {
  }

  lemma Keys()
    ensures Key(SpeedPath, "test-source") == SpeedKey
    ensures Key(AnglePath, "test-source") == AngleKey
    ensures Key(WaterPath, "test-source") == WaterKey
  {
  }

  lemma WalkOne<V>(child: Child<V>, path: string, f: FilterSpec)
    ensures Walk(Branch([child]), path, f) == Walk(child.node, Join(path, child.name), f)
  {
    var cs := [child];
    assert cs[1..] == [];
    assert WalkChildren(cs, path, f) == Walk(child.node, Join(path, child.name), f) + WalkChildren([], path, f);
  }

  lemma WalkTwo<V>(a: Child<V>, b: Child<V>, path: string, f: FilterSpec)
    ensures Walk(Branch([a, b]), path, f)
            == Walk(a.node, Join(path, a.name), f) + Walk(b.node, Join(path, b.name), f)
  {
    var cs := [a, b];
    assert cs[1..] == [b];
    WalkOne(b, path, f);
    assert WalkChildren(cs, path, f) == Walk(a.node, Join(path, a.name), f) + WalkChildren([b], path, f);
  }

  lemma EmitTwoSources<V>(path: string, a: SourceReading<V>, b: SourceReading<V>)
    ensures EmitSources(path, [a, b]) == Emit(path, a.source, a.reading) + Emit(path, b.source, b.reading)
  {
    var rs := [a, b];
    assert rs[1..] == [b];
    assert [b][1..] == [];
    assert EmitSources(path, [b]) == Emit(path, b.source, b.reading) + EmitSources(path, []);
    assert EmitSources(path, rs) == Emit(path, a.source, a.reading) + EmitSources(path, [b]);
  }

  /** A position flattens to its longitude then its latitude. */
  lemma EmitPoint(path: string, source: string, lon: real, lat: real)
    ensures Emit(path, source, Point(lon, lat))
            == [Pair(Key(path + ".longitude", source), lon), Pair(Key(path + ".latitude", source), lat)]
  {
    var fields := [Field("longitude", Number(lon)), Field("latitude", Number(lat))];
    Flatten(path, source, fields);
    var r := EmitFields(path, source, fields);
    assert r == [r[0], r[1]];
    assert path + "." + "longitude" == path + ".longitude";
    assert path + "." + "latitude" == path + ".latitude";
    assert Emit(path, source, Point(lon, lat)) == r;
  }

  lemma ExtractWindSpeed(v: real, f: FilterSpec)
    ensures Extract(WindSpeed(v), Self, f) == if Selected(f, SpeedPath) then [Pair(SpeedKey, v)] else []
  {
    WindPaths();
    Keys();
    WalkOne(Wind([Speed(v)]), "", f);
    WalkOne(Child("wind", Branch([Speed(v)])), "environment", f);
    WalkOne(Speed(v), "environment.wind", f);
    SimpleNumber(SpeedPath, "test-source", v, f);
  }

  lemma ExtractWindSpeedAngle(f: FilterSpec)
    ensures Extract(WindSpeedAngle(), Self, f)
            == (if Selected(f, SpeedPath) then [Pair(SpeedKey, 0.0)] else [])
               + (if Selected(f, AnglePath) then [Pair(AngleKey, 1.9799)] else [])
  {
    WindPaths();
    Keys();
    WalkOne(Wind([Speed(0.0), Angle(1.9799)]), "", f);
    WalkOne(Child("wind", Branch([Speed(0.0), Angle(1.9799)])), "environment", f);
    WalkTwo(Speed(0.0), Angle(1.9799), "environment.wind", f);
    SimpleNumber(SpeedPath, "test-source", 0.0, f);
    SimpleNumber(AnglePath, "test-source", 1.9799, f);
  }

  lemma ExtractEnvironmentAndNavigation(f: FilterSpec)
    ensures Extract(EnvironmentAndNavigation(), Self, f)
            == (if Selected(f, SpeedPath) then [Pair(SpeedKey, 0.0)] else [])
               + (if Selected(f, AnglePath) then [Pair(AngleKey, 1.9799)] else [])
               + (if Selected(f, WaterPath) then [Pair(WaterKey, 0.0)] else [])
  {
    WindPaths();
    NavigationPaths();
    Keys();
    var water := Child("speedThroughWater", Simple("test-source", Number(0.0)));
    WalkTwo(Wind([Speed(0.0), Angle(1.9799)]), Navigation([water]), "", f);
    WalkOne(Child("wind", Branch([Speed(0.0), Angle(1.9799)])), "environment", f);
    WalkTwo(Speed(0.0), Angle(1.9799), "environment.wind", f);
    WalkOne(water, "navigation", f);
    SimpleNumber(SpeedPath, "test-source", 0.0, f);
    SimpleNumber(AnglePath, "test-source", 1.9799, f);
    SimpleNumber(WaterPath, "test-source", 0.0, f);
  }

  lemma ExtractWindSpeedTwoSources()
    ensures Extract(WindSpeedTwoSources(), Self, FilterSpec(Exclude, []))
            == [Pair("environment.wind.speedApparent|test-source-1", 0.0),
                Pair("environment.wind.speedApparent|test-source-2", 0.5)]
  {
    WindPaths();
    var f := FilterSpec(Exclude, []);
    var readings := [SourceReading("test-source-1", Number(0.0)), SourceReading("test-source-2", Number(0.5))];
    var speed := Child("speedApparent", MultiSource(readings));
    WalkOne(Wind([speed]), "", f);
    WalkOne(Child("wind", Branch([speed])), "environment", f);
    WalkOne(speed, "environment.wind", f);
    FanOut(SpeedPath, readings);
    var r := EmitSources(SpeedPath, readings);
    assert r == [r[0], r[1]];
    assert Key(SpeedPath, "test-source-1") == "environment.wind.speedApparent|test-source-1";
    assert Key(SpeedPath, "test-source-2") == "environment.wind.speedApparent|test-source-2";
    assert Selected(f, SpeedPath);
    assert Walk(speed.node, SpeedPath, f) == r;
  }

  lemma EmitPosition()
    ensures Expand(PositionPath, Simple("test-source", Point(-122.40, 47.67)))
            == [Pair("navigation.position.longitude|test-source", -122.40),
                Pair("navigation.position.latitude|test-source", 47.67)]
  {
    var readings := [SourceReading("test-source", Point(-122.40, 47.67))];
    assert readings[1..] == [];
    EmitPoint(PositionPath, "test-source", -122.40, 47.67);
    assert EmitSources(PositionPath, readings)
        == Emit(PositionPath, "test-source", Point(-122.40, 47.67)) + EmitSources(PositionPath, []);
    PositionFieldPaths();
    assert Key("navigation.position.longitude", "test-source") == "navigation.position.longitude|test-source";
    assert Key("navigation.position.latitude", "test-source") == "navigation.position.latitude|test-source";
  }

  lemma ExtractPosition()
    ensures Extract(Position(), Self, FilterSpec(Exclude, []))
            == [Pair("navigation.position.longitude|test-source", -122.40),
                Pair("navigation.position.latitude|test-source", 47.67)]
  {
    NavigationPaths();
    var f := FilterSpec(Exclude, []);
    var position := Child("position", Simple("test-source", Point(-122.40, 47.67)));
    WalkOne(Navigation([position]), "", f);
    WalkOne(position, "navigation", f);
    assert Selected(f, PositionPath);
    assert Walk(position.node, PositionPath, f) == Expand(PositionPath, position.node);
    EmitPosition();
  }

  /** The filter sees the base path only: a pattern naming a field of the
      position, or a wildcard below it, keeps none of its keys. */
  lemma SubFieldPatternSelectsNothing()
    ensures Extract(Position(), Self, FilterSpec(Include, ["navigation.position.longitude"])) == []
    ensures Extract(Position(), Self, FilterSpec(Include, ["navigation.position.*"])) == []
  {
    PositionUnselected(FilterSpec(Include, ["navigation.position.longitude"]));
    PositionUnselected(FilterSpec(Include, ["navigation.position.*"]));
  }

  /** Under a filter that rejects the position's base path, the store yields nothing. */
  lemma PositionUnselected(f: FilterSpec)
    requires f.mode == Include && |f.patterns| == 1
    requires |f.patterns[0]| > |PositionPath| + 1
    ensures Extract(Position(), Self, f) == []
  {
    NavigationPaths();
    var position := Child("position", Simple("test-source", Point(-122.40, 47.67)));
    WalkOne(Navigation([position]), "", f);
    WalkOne(position, "navigation", f);
    assert !Matches(f.patterns[0], PositionPath);
    assert !Selected(f, PositionPath);
  }

  lemma PositionFieldPaths()
    ensures PositionPath + ".longitude" == "navigation.position.longitude"
    ensures PositionPath + ".latitude" == "navigation.position.latitude"
  {
  }

  lemma EmitPositionFirst()
    ensures Emit(PositionPath, "test-source-1", Point(-122.40, 47.67))
            == [Pair("navigation.position.longitude|test-source-1", -122.40),
                Pair("navigation.position.latitude|test-source-1", 47.67)]
  {
    EmitPoint(PositionPath, "test-source-1", -122.40, 47.67);
    PositionFieldPaths();
    assert Key("navigation.position.longitude", "test-source-1") == "navigation.position.longitude|test-source-1";
    assert Key("navigation.position.latitude", "test-source-1") == "navigation.position.latitude|test-source-1";
  }

  lemma EmitPositionSecond()
    ensures Emit(PositionPath, "test-source-2", Point(-122.50, 47.68))
            == [Pair("navigation.position.longitude|test-source-2", -122.50),
                Pair("navigation.position.latitude|test-source-2", 47.68)]
  {
    EmitPoint(PositionPath, "test-source-2", -122.50, 47.68);
    PositionFieldPaths();
    assert Key("navigation.position.longitude", "test-source-2") == "navigation.position.longitude|test-source-2";
    assert Key("navigation.position.latitude", "test-source-2") == "navigation.position.latitude|test-source-2";
  }

  lemma EmitPositionTwoSources()
    ensures EmitSources(PositionPath, [SourceReading("test-source-1", Point(-122.40, 47.67)),
                                       SourceReading("test-source-2", Point(-122.50, 47.68))])
            == [Pair("navigation.position.longitude|test-source-1", -122.40),
                Pair("navigation.position.latitude|test-source-1", 47.67),
                Pair("navigation.position.longitude|test-source-2", -122.50),
                Pair("navigation.position.latitude|test-source-2", 47.68)]
  {
    var a := SourceReading("test-source-1", Point(-122.40, 47.67));
    var b := SourceReading("test-source-2", Point(-122.50, 47.68));
    EmitTwoSources(PositionPath, a, b);
    EmitPositionFirst();
    EmitPositionSecond();
  }

  lemma ExtractPositionTwoSources()
    ensures Extract(PositionTwoSources(), Self, FilterSpec(Exclude, []))
            == [Pair("navigation.position.longitude|test-source-1", -122.40),
                Pair("navigation.position.latitude|test-source-1", 47.67),
                Pair("navigation.position.longitude|test-source-2", -122.50),
                Pair("navigation.position.latitude|test-source-2", 47.68)]
  {
    NavigationPaths();
    var f := FilterSpec(Exclude, []);
    var a := SourceReading("test-source-1", Point(-122.40, 47.67));
    var b := SourceReading("test-source-2", Point(-122.50, 47.68));
    var position := Child("position", MultiSource([a, b]));
    WalkOne(Navigation([position]), "", f);
    WalkOne(position, "navigation", f);
    assert Selected(f, PositionPath);
    assert Walk(position.node, PositionPath, f) == EmitSources(PositionPath, [a, b]);
    EmitPositionTwoSources();
  }

  /** The batch published by a trace of updates followed by one write. */
  function Published(options: Options, readings: seq<(int, Store<real>)>): Batch<int, real> {
    var s := Start(Self, options);
    CaptureAll(s.batch, SamplesOf(s, readings))
  }

  lemma PublishedByTrace(options: Options, readings: seq<(int, Store<real>)>)
    ensures Run(Start(Self, options), Updates(readings) + [Write]).1 == [Published(options, readings)]
  {
    UpdatesThenWrite(Start(Self, options), readings);
  }

  lemma OneUpdate(options: Options, t: int, store: Store<real>)
    ensures Updates([(t, store)]) + [Write] == [Update(t, store), Write]
    ensures Published(options, [(t, store)])
            == Capture(Empty(), t, Extract(store, Self, FilterOf(options)))
  {
    var readings := [(t, store)];
    assert readings[1..] == [];
    assert Updates(readings) == [Update(t, store)] + Updates([]);
    var s := Start(Self, options);
    var pairs := Extract(store, Self, FilterOf(options));
    assert SamplesOf(s, readings) == [Sample(t, pairs)] + SamplesOf(s, []);
    var samples := [Sample(t, pairs)];
    assert samples[1..] == [];
    assert CaptureAll(Empty(), samples) == CaptureAll(Capture(Empty(), t, pairs), []);
  }

  lemma TwoUpdates(options: Options, t: int, store: Store<real>, t': int, store': Store<real>)
    ensures Updates([(t, store), (t', store')]) + [Write] == [Update(t, store), Update(t', store'), Write]
    ensures Published(options, [(t, store), (t', store')])
            == Capture(Capture(Empty(), t, Extract(store, Self, FilterOf(options))),
                       t', Extract(store', Self, FilterOf(options)))
  {
    var readings := [(t, store), (t', store')];
    assert readings[1..] == [(t', store')];
    assert readings[1..][1..] == [];
    assert Updates(readings[1..]) == [Update(t', store')] + Updates([]);
    assert Updates(readings) == [Update(t, store)] + Updates(readings[1..]);
    var s := Start(Self, options);
    var pairs := Extract(store, Self, FilterOf(options));
    var pairs' := Extract(store', Self, FilterOf(options));
    assert SamplesOf(s, readings[1..]) == [Sample(t', pairs')] + SamplesOf(s, []);
    assert SamplesOf(s, readings) == [Sample(t, pairs)] + SamplesOf(s, readings[1..]);
    var samples := [Sample(t, pairs), Sample(t', pairs')];
    assert samples[1..] == [Sample(t', pairs')];
    assert samples[1..][1..] == [];
    var first := Capture(Empty(), t, pairs);
    assert CaptureAll(Empty(), samples) == CaptureAll(first, samples[1..]);
    assert CaptureAll(first, samples[1..]) == CaptureAll(Capture(first, t', pairs'), []);
    assert SamplesOf(s, readings) == samples;
    assert Published(options, readings) == CaptureAll(Empty(), samples);
  }

  /** A value for a key not yet tracked starts that key's series. */
  lemma AppendFresh(data: map<string, seq<real>>, k: string, v: real)
    requires k !in data
    ensures AppendAll(data, [Pair(k, v)]) == data[k := [v]]
  {
    var pairs := [Pair(k, v)];
    assert pairs[1..] == [];
    assert Series(data, k) + [v] == [v];
  }

  /** A value for a tracked key goes to the end of its series. */
  lemma AppendTracked(data: map<string, seq<real>>, k: string, v: real)
    requires k in data
    ensures AppendAll(data, [Pair(k, v)]) == data[k := data[k] + [v]]
  {
    var pairs := [Pair(k, v)];
    assert pairs[1..] == [];
  }

  lemma Overwrite(k: string, a: seq<real>, b: seq<real>)
    ensures map[k := a][k := b] == map[k := b]
  {
  }

  lemma OverwriteTwo(k1: string, k2: string, a: seq<real>, b: seq<real>, c: seq<real>, d: seq<real>)
    requires k1 != k2
    ensures map[k1 := a, k2 := b][k1 := c][k2 := d] == map[k1 := c, k2 := d]
  {
    var m := map[k1 := a, k2 := b][k1 := c][k2 := d];
    assert m.Keys == {k1, k2};
  }

  lemma AppendTwo(data: map<string, seq<real>>, p: Pair<real>, q: Pair<real>)
    ensures AppendAll(data, [p, q])
            == AppendAll(data[p.key := Series(data, p.key) + [p.value]], [q])
  {
    assert [p, q][1..] == [q];
  }

  // publish-data: one update, one write.

  lemma PublishDataBatch()
    ensures Published(NoOptions, [(T0, WindSpeed(0.0))]) == Batch([T0], map[SpeedKey := [0.0]])
  {
    OneUpdate(NoOptions, T0, WindSpeed(0.0));
    ExtractWindSpeed(0.0, FilterOf(NoOptions));
    assert Selected(FilterOf(NoOptions), SpeedPath);
    AppendFresh(map[], SpeedKey, 0.0);
  }

  lemma PublishData()
    ensures Run(Start(Self, NoOptions), [Update(T0, WindSpeed(0.0)), Write]).1
            == [Batch([T0], map[SpeedKey := [0.0]])]
  {
    OneUpdate(NoOptions, T0, WindSpeed(0.0));
    PublishedByTrace(NoOptions, [(T0, WindSpeed(0.0))]);
    PublishDataBatch();
  }

  // publish-two-times and changing-value: two updates a millisecond apart, then a write.

  lemma TwoTimesBatch(v: real, v': real)
    ensures Published(NoOptions, [(T0, WindSpeed(v)), (T1, WindSpeed(v'))])
            == Batch([T0, T1], map[SpeedKey := [v, v']])
  {
    TwoUpdates(NoOptions, T0, WindSpeed(v), T1, WindSpeed(v'));
    ExtractWindSpeed(v, FilterOf(NoOptions));
    ExtractWindSpeed(v', FilterOf(NoOptions));
    assert Selected(FilterOf(NoOptions), SpeedPath);
    AppendFresh(map[], SpeedKey, v);
    var first: map<string, seq<real>> := map[SpeedKey := [v]];
    AppendTracked(first, SpeedKey, v');
    assert [v] + [v'] == [v, v'];
    Overwrite(SpeedKey, [v], [v, v']);
    assert [T0] + [T1] == [T0, T1];
  }

  lemma PublishTwoTimes()
    ensures Run(Start(Self, NoOptions), [Update(T0, WindSpeed(0.0)), Update(T1, WindSpeed(0.0)), Write]).1
            == [Batch([T0, T1], map[SpeedKey := [0.0, 0.0]])]
  {
    TwoUpdates(NoOptions, T0, WindSpeed(0.0), T1, WindSpeed(0.0));
    PublishedByTrace(NoOptions, [(T0, WindSpeed(0.0)), (T1, WindSpeed(0.0))]);
    TwoTimesBatch(0.0, 0.0);
  }

  /** The value changes between the captures: each capture keeps its own. */
  lemma ChangingValue()
    ensures Run(Start(Self, NoOptions), [Update(T0, WindSpeed(0.0)), Update(T1, WindSpeed(1.2)), Write]).1
            == [Batch([T0, T1], map[SpeedKey := [0.0, 1.2]])]
  {
    TwoUpdates(NoOptions, T0, WindSpeed(0.0), T1, WindSpeed(1.2));
    PublishedByTrace(NoOptions, [(T0, WindSpeed(0.0)), (T1, WindSpeed(1.2))]);
    TwoTimesBatch(0.0, 1.2);
  }

  // publish-two-metrics: two paths, two captures.

  lemma TwoMetricsFirst()
    ensures AppendAll(map[], [Pair(SpeedKey, 0.0), Pair(AngleKey, 1.9799)])
            == map[SpeedKey := [0.0], AngleKey := [1.9799]]
  {
    var empty: map<string, seq<real>> := map[];
    AppendTwo(empty, Pair(SpeedKey, 0.0), Pair(AngleKey, 1.9799));
    assert Series(empty, SpeedKey) + [0.0] == [0.0];
    AppendFresh(map[SpeedKey := [0.0]], AngleKey, 1.9799);
  }

  lemma TwoMetricsSecond()
    ensures AppendAll(map[SpeedKey := [0.0], AngleKey := [1.9799]], [Pair(SpeedKey, 0.0), Pair(AngleKey, 1.9799)])
            == map[SpeedKey := [0.0, 0.0], AngleKey := [1.9799, 1.9799]]
  {
    var data: map<string, seq<real>> := map[SpeedKey := [0.0], AngleKey := [1.9799]];
    AppendTwo(data, Pair(SpeedKey, 0.0), Pair(AngleKey, 1.9799));
    assert Series(data, SpeedKey) + [0.0] == [0.0, 0.0];
    var mid := data[SpeedKey := [0.0, 0.0]];
    AppendTracked(mid, AngleKey, 1.9799);
    assert [1.9799] + [1.9799] == [1.9799, 1.9799];
    OverwriteTwo(SpeedKey, AngleKey, [0.0], [1.9799], [0.0, 0.0], [1.9799, 1.9799]);
  }

  lemma TwoMetricsBatch()
    ensures Published(NoOptions, [(T0, WindSpeedAngle()), (T1, WindSpeedAngle())])
            == Batch([T0, T1], map[SpeedKey := [0.0, 0.0], AngleKey := [1.9799, 1.9799]])
  {
    TwoUpdates(NoOptions, T0, WindSpeedAngle(), T1, WindSpeedAngle());
    ExtractWindSpeedAngle(FilterOf(NoOptions));
    assert Selected(FilterOf(NoOptions), SpeedPath) && Selected(FilterOf(NoOptions), AnglePath);
    TwoMetricsFirst();
    TwoMetricsSecond();
  }

  lemma PublishTwoMetrics()
    ensures Run(Start(Self, NoOptions), [Update(T0, WindSpeedAngle()), Update(T1, WindSpeedAngle()), Write]).1
            == [Batch([T0, T1], map[SpeedKey := [0.0, 0.0], AngleKey := [1.9799, 1.9799]])]
  {
    TwoUpdates(NoOptions, T0, WindSpeedAngle(), T1, WindSpeedAngle());
    PublishedByTrace(NoOptions, [(T0, WindSpeedAngle()), (T1, WindSpeedAngle())]);
    TwoMetricsBatch();
  }

  // reset-batch-after-write: the second write publishes the empty batch.

  lemma ResetBatchAfterWrite()
    ensures Run(Start(Self, NoOptions), [Update(T0, WindSpeed(0.0)), Write, Write]).1
            == [Batch([T0], map[SpeedKey := [0.0]]), Batch([], map[])]
  {
    var s := Start(Self, NoOptions);
    var first := [Update(T0, WindSpeed(0.0)), Write];
    assert first + [Write] == [Update(T0, WindSpeed(0.0)), Write, Write];
    RunAppend(s, first, [Write]);
    PublishData();
    OneUpdate(NoOptions, T0, WindSpeed(0.0));
    UpdatesThenWrite(s, [(T0, WindSpeed(0.0))]);
    var after := Run(s, first).0;
    assert after.batch == Batch([], map[]);
    assert Run(after, [Write]).1 == [after.batch];
  }

  // publish-data-with-object-values: a position flattens to two keys.

  lemma ObjectValuesBatch()
    ensures Published(NoOptions, [(T0, Position())])
            == Batch([T0], map["navigation.position.longitude|test-source" := [-122.40],
                               "navigation.position.latitude|test-source" := [47.67]])
  {
    OneUpdate(NoOptions, T0, Position());
    ExtractPosition();
    var lon := Pair("navigation.position.longitude|test-source", -122.40);
    var lat := Pair("navigation.position.latitude|test-source", 47.67);
    var empty: map<string, seq<real>> := map[];
    AppendTwo(empty, lon, lat);
    assert Series(empty, lon.key) + [lon.value] == [lon.value];
    AppendFresh(map[lon.key := [lon.value]], lat.key, lat.value);
  }

  lemma PublishDataWithObjectValues()
    ensures Run(Start(Self, NoOptions), [Update(T0, Position()), Write]).1
            == [Batch([T0], map["navigation.position.longitude|test-source" := [-122.40],
                                "navigation.position.latitude|test-source" := [47.67]])]
  {
    OneUpdate(NoOptions, T0, Position());
    PublishedByTrace(NoOptions, [(T0, Position())]);
    ObjectValuesBatch();
  }

  // include-nothing: an empty include list records the time and no value.

  lemma IncludeNothingBatch()
    ensures Published(Options(Some(Include), Some([])), [(T0, WindSpeedAngle())]) == Batch([T0], map[])
  {
    var o := Options(Some(Include), Some([]));
    OneUpdate(o, T0, WindSpeedAngle());
    ExtractIncludeNothing(WindSpeedAngle(), Self);
    var none: seq<Pair<real>> := [];
    assert AppendAll(map[], none) == map[];
    assert [] + [T0] == [T0];
  }

  lemma IncludeNothing()
    ensures Run(Start(Self, Options(Some(Include), Some([]))), [Update(T0, WindSpeedAngle()), Write]).1
            == [Batch([T0], map[])]
  {
    var o := Options(Some(Include), Some([]));
    OneUpdate(o, T0, WindSpeedAngle());
    PublishedByTrace(o, [(T0, WindSpeedAngle())]);
    IncludeNothingBatch();
  }

  // include-one-metric and exclude-one-metric: one exact pattern.

  lemma OneMetricFilter()
    ensures Selected(FilterSpec(Include, [SpeedPath]), SpeedPath)
    ensures !Selected(FilterSpec(Include, [SpeedPath]), AnglePath)
    ensures !Selected(FilterSpec(Exclude, [SpeedPath]), SpeedPath)
    ensures Selected(FilterSpec(Exclude, [SpeedPath]), AnglePath)
  {
    assert SpeedPath != [] && !IsGlob(SpeedPath);
    SingleExactPattern(SpeedPath, SpeedPath);
    SingleExactPattern(SpeedPath, AnglePath);
  }

  lemma IncludeOneMetricBatch()
    ensures Published(Options(Some(Include), Some([SpeedPath])), [(T0, WindSpeedAngle())])
            == Batch([T0], map[SpeedKey := [0.0]])
  {
    var o := Options(Some(Include), Some([SpeedPath]));
    OneUpdate(o, T0, WindSpeedAngle());
    OneMetricFilter();
    ExtractWindSpeedAngle(FilterOf(o));
    assert Extract(WindSpeedAngle(), Self, FilterOf(o)) == [Pair(SpeedKey, 0.0)];
    AppendFresh(map[], SpeedKey, 0.0);
  }

  lemma IncludeOneMetric()
    ensures Run(Start(Self, Options(Some(Include), Some([SpeedPath]))), [Update(T0, WindSpeedAngle()), Write]).1
            == [Batch([T0], map[SpeedKey := [0.0]])]
  {
    var o := Options(Some(Include), Some([SpeedPath]));
    OneUpdate(o, T0, WindSpeedAngle());
    PublishedByTrace(o, [(T0, WindSpeedAngle())]);
    IncludeOneMetricBatch();
  }

  lemma ExcludeOneMetricBatch()
    ensures Published(Options(Some(Exclude), Some([SpeedPath])), [(T0, WindSpeedAngle())])
            == Batch([T0], map[AngleKey := [1.9799]])
  {
    var o := Options(Some(Exclude), Some([SpeedPath]));
    OneUpdate(o, T0, WindSpeedAngle());
    OneMetricFilter();
    ExtractWindSpeedAngle(FilterOf(o));
    assert Extract(WindSpeedAngle(), Self, FilterOf(o)) == [Pair(AngleKey, 1.9799)];
    AppendFresh(map[], AngleKey, 1.9799);
  }

  lemma ExcludeOneMetric()
    ensures Run(Start(Self, Options(Some(Exclude), Some([SpeedPath]))), [Update(T0, WindSpeedAngle()), Write]).1
            == [Batch([T0], map[AngleKey := [1.9799]])]
  {
    var o := Options(Some(Exclude), Some([SpeedPath]));
    OneUpdate(o, T0, WindSpeedAngle());
    PublishedByTrace(o, [(T0, WindSpeedAngle())]);
    ExcludeOneMetricBatch();
  }

  // glob-include and glob-exclude: the `environment.*` wildcard.

  lemma GlobMatchesSpeed()
    ensures Matches("environment.*", SpeedPath)
  {
    assert "environment.*"[..12] == SpeedPath[..12];
  }

  lemma GlobMatchesAngle()
    ensures Matches("environment.*", AnglePath)
  {
    assert "environment.*"[..12] == AnglePath[..12];
  }

  /** The wildcard's stem is a whole segment: neither a sibling subtree nor a
      path that merely shares a string prefix matches. */
  lemma GlobRejectsOthers()
    ensures !Matches("environment.*", WaterPath)
    ensures !Matches("environment.*", "environment2.x")
  {
    var stem := "environment.*"[..12];
    assert stem == "environment.";
    assert WaterPath[0] != stem[0];
    assert "environment2.x"[11] != stem[11];
  }

  lemma GlobSelection(mode: Mode)
    ensures var f := FilterSpec(mode, ["environment.*"]);
            && (Selected(f, SpeedPath) <==> mode == Include)
            && (Selected(f, AnglePath) <==> mode == Include)
            && (Selected(f, WaterPath) <==> mode == Exclude)
  {
    var patterns := ["environment.*"];
    GlobMatchesSpeed();
    GlobMatchesAngle();
    GlobRejectsOthers();
    assert Matches(patterns[0], SpeedPath) && Matches(patterns[0], AnglePath);
    assert !AnyMatch(patterns, WaterPath) by {
      forall i | 0 <= i < |patterns| ensures !Matches(patterns[i], WaterPath) {
        assert patterns[i] == "environment.*";
      }
    }
  }

  lemma GlobExtract(mode: Mode)
    ensures Extract(EnvironmentAndNavigation(), Self, FilterSpec(mode, ["environment.*"]))
            == if mode == Include then [Pair(SpeedKey, 0.0), Pair(AngleKey, 1.9799)]
               else [Pair(WaterKey, 0.0)]
  {
    GlobSelection(mode);
    ExtractEnvironmentAndNavigation(FilterSpec(mode, ["environment.*"]));
  }

  lemma GlobIncludeBatch()
    ensures Published(Options(Some(Include), Some(["environment.*"])), [(T0, EnvironmentAndNavigation())])
            == Batch([T0], map[SpeedKey := [0.0], AngleKey := [1.9799]])
  {
    var o := Options(Some(Include), Some(["environment.*"]));
    OneUpdate(o, T0, EnvironmentAndNavigation());
    GlobExtract(Include);
    TwoMetricsFirst();
  }

  lemma GlobInclude()
    ensures Run(Start(Self, Options(Some(Include), Some(["environment.*"]))),
                [Update(T0, EnvironmentAndNavigation()), Write]).1
            == [Batch([T0], map[SpeedKey := [0.0], AngleKey := [1.9799]])]
  {
    var o := Options(Some(Include), Some(["environment.*"]));
    OneUpdate(o, T0, EnvironmentAndNavigation());
    PublishedByTrace(o, [(T0, EnvironmentAndNavigation())]);
    GlobIncludeBatch();
  }

  lemma GlobExcludeBatch()
    ensures Published(Options(Some(Exclude), Some(["environment.*"])), [(T0, EnvironmentAndNavigation())])
            == Batch([T0], map[WaterKey := [0.0]])
  {
    var o := Options(Some(Exclude), Some(["environment.*"]));
    OneUpdate(o, T0, EnvironmentAndNavigation());
    GlobExtract(Exclude);
    AppendFresh(map[], WaterKey, 0.0);
  }

  lemma GlobExclude()
    ensures Run(Start(Self, Options(Some(Exclude), Some(["environment.*"]))),
                [Update(T0, EnvironmentAndNavigation()), Write]).1
            == [Batch([T0], map[WaterKey := [0.0]])]
  {
    var o := Options(Some(Exclude), Some(["environment.*"]));
    OneUpdate(o, T0, EnvironmentAndNavigation());
    PublishedByTrace(o, [(T0, EnvironmentAndNavigation())]);
    GlobExcludeBatch();
  }

  // two-sources and two-sources-object-value: one series per source.

  lemma TwoSourcesBatch()
    ensures Published(NoOptions, [(T0, WindSpeedTwoSources())])
            == Batch([T0], map["environment.wind.speedApparent|test-source-1" := [0.0],
                               "environment.wind.speedApparent|test-source-2" := [0.5]])
  {
    OneUpdate(NoOptions, T0, WindSpeedTwoSources());
    ExtractWindSpeedTwoSources();
    var one := Pair("environment.wind.speedApparent|test-source-1", 0.0);
    var two := Pair("environment.wind.speedApparent|test-source-2", 0.5);
    var empty: map<string, seq<real>> := map[];
    AppendTwo(empty, one, two);
    assert Series(empty, one.key) + [one.value] == [one.value];
    AppendFresh(map[one.key := [one.value]], two.key, two.value);
  }

  lemma TwoSources()
    ensures Run(Start(Self, NoOptions), [Update(T0, WindSpeedTwoSources()), Write]).1
            == [Batch([T0], map["environment.wind.speedApparent|test-source-1" := [0.0],
                                "environment.wind.speedApparent|test-source-2" := [0.5]])]
  {
    OneUpdate(NoOptions, T0, WindSpeedTwoSources());
    PublishedByTrace(NoOptions, [(T0, WindSpeedTwoSources())]);
    TwoSourcesBatch();
  }

  lemma TwoSourcesObjectValueData()
    ensures AppendAll(map[], [Pair("navigation.position.longitude|test-source-1", -122.40),
                              Pair("navigation.position.latitude|test-source-1", 47.67),
                              Pair("navigation.position.longitude|test-source-2", -122.50),
                              Pair("navigation.position.latitude|test-source-2", 47.68)])
            == map["navigation.position.longitude|test-source-1" := [-122.40],
                   "navigation.position.latitude|test-source-1" := [47.67],
                   "navigation.position.longitude|test-source-2" := [-122.50],
                   "navigation.position.latitude|test-source-2" := [47.68]]
  {
    var a := Pair("navigation.position.longitude|test-source-1", -122.40);
    var b := Pair("navigation.position.latitude|test-source-1", 47.67);
    var c := Pair("navigation.position.longitude|test-source-2", -122.50);
    var d := Pair("navigation.position.latitude|test-source-2", 47.68);
    var m0: map<string, seq<real>> := map[];
    var m1 := m0[a.key := [a.value]];
    var m2 := m1[b.key := [b.value]];
    var m3 := m2[c.key := [c.value]];
    assert [a, b, c, d][1..] == [b, c, d];
    assert [b, c, d][1..] == [c, d];
    assert Series(m0, a.key) + [a.value] == [a.value];
    assert AppendAll(m0, [a, b, c, d]) == AppendAll(m1, [b, c, d]);
    assert Series(m1, b.key) + [b.value] == [b.value];
    assert AppendAll(m1, [b, c, d]) == AppendAll(m2, [c, d]);
    AppendTwo(m2, c, d);
    assert Series(m2, c.key) + [c.value] == [c.value];
    AppendFresh(m3, d.key, d.value);
  }

  lemma TwoSourcesObjectValueBatch()
    ensures Published(NoOptions, [(T0, PositionTwoSources())])
            == Batch([T0], map["navigation.position.longitude|test-source-1" := [-122.40],
                               "navigation.position.latitude|test-source-1" := [47.67],
                               "navigation.position.longitude|test-source-2" := [-122.50],
                               "navigation.position.latitude|test-source-2" := [47.68]])
  {
    OneUpdate(NoOptions, T0, PositionTwoSources());
    ExtractPositionTwoSources();
    TwoSourcesObjectValueData();
  }

  lemma TwoSourcesObjectValue()
    ensures Run(Start(Self, NoOptions), [Update(T0, PositionTwoSources()), Write]).1
            == [Batch([T0], map["navigation.position.longitude|test-source-1" := [-122.40],
                                "navigation.position.latitude|test-source-1" := [47.67],
                                "navigation.position.longitude|test-source-2" := [-122.50],
                                "navigation.position.latitude|test-source-2" := [47.68]])]
  {
    OneUpdate(NoOptions, T0, PositionTwoSources());
    PublishedByTrace(NoOptions, [(T0, PositionTwoSources())]);
    TwoSourcesObjectValueBatch();
  }

  // Why stores must be well formed: a child whose name holds a dot.

  /** A child named `a.b` beside a branch `a` holding `b` yields the key
      `a.b|s` twice, so one capture would put two values under one timestamp. */
  lemma AmbiguousNamesRepeatKey()
    ensures var node: Node<int> := Branch([Child("a.b", Simple("s", Number(1))),
                                           Child("a", Branch([Child("b", Simple("s", Number(2)))]))]);
            var pairs := Walk(node, "", FilterSpec(Exclude, []));
            && !WellFormedNode(node)
            && pairs == [Pair("a.b|s", 1), Pair("a.b|s", 2)]
            && !DistinctKeys(pairs)
  {
    var f := FilterSpec(Exclude, []);
    var first: Child<int> := Child("a.b", Simple("s", Number(1)));
    var inner: Child<int> := Child("b", Simple("s", Number(2)));
    WalkTwo(first, Child("a", Branch([inner])), "", f);
    WalkOne(inner, "a", f);
    assert Join("", "a.b") == "a.b" && Join("a", "b") == "a.b";
    SimpleNumber("a.b", "s", 1, f);
    SimpleNumber("a.b", "s", 2, f);
    assert Key("a.b", "s") == "a.b|s";
    assert "a.b"[1] == '.';
    var pairs := Walk(Branch([first, Child("a", Branch([inner]))]), "", f);
    assert pairs[0].key == pairs[1].key;
  }
}

=== FILE: snapshot.dfy ===
/** The owner's measurement tree and the extraction of one snapshot of it
    into flat `"<path>|<source>"` → value pairs.

    A tree node is a branch of named children, a measurement published by a
    single source, or a measurement published by several sources. A source's
    reading is a number, a composite object of named sub-readings (a position
    holds `longitude` and `latitude`), or something non-numeric that is
    skipped. Values are opaque: they are copied, never computed on.
 */
module Snapshot {
  import opened PathFilter

  datatype Reading<V> =
    | Number(value: V)
    | Composite(fields: seq<Field<V>>)
    | NonNumeric

  datatype Field<V> = Field(name: string, reading: Reading<V>)

  datatype SourceReading<V> = SourceReading(source: string, reading: Reading<V>)

  datatype Node<V> =
    | Branch(children: seq<Child<V>>)
    | Simple(source: string, reading: Reading<V>)
    | MultiSource(readings: seq<SourceReading<V>>)

  datatype Child<V> = Child(name: string, node: Node<V>)

  /** The whole store, keyed by owner (vessel) identifier. */
  datatype Store<V> = Store(vessels: map<string, Node<V>>)

  /** A metric key with the value captured for it. */
  datatype Pair<V> = Pair(key: string, value: V)

  /** A measurement node found in the tree, with its dotted base path. */
  datatype Located<V> = Located(path: string, node: Node<V>)

  /** The serialised metric key `"<path>|<source>"`. */
  function Key(path: string, source: string): (key: string) {
    path + "|" + source
  }

  /** The dotted path of a child: its bare name at the owner's root. */
  function Join(path: string, name: string): string {
    if path == [] then name else path + "." + name
  }

  /** The per-source readings a measurement node carries; a branch carries none. */
  function Readings<V>(node: Node<V>): seq<SourceReading<V>> {
    match node
    case Branch(_) => []
    case Simple(source, reading) => [SourceReading(source, reading)]
    case MultiSource(readings) => readings
  }

  /** The pairs one source's reading contributes at `path`: one for a number,
      one per numeric leaf of a composite (at `path.<field>`), none otherwise. */
  function Emit<V>(path: string, source: string, r: Reading<V>): seq<Pair<V>>
    decreases r
  {
    match r
    case Number(v) => [Pair(Key(path, source), v)]
    case NonNumeric => []
    case Composite(fields) => EmitFields(path, source, fields)
  }

  function EmitFields<V>(path: string, source: string, fields: seq<Field<V>>): seq<Pair<V>>
    decreases fields
  {
    if fields == [] then []
    else Emit(path + "." + fields[0].name, source, fields[0].reading)
         + EmitFields(path, source, fields[1..])
  }

  /** The pairs of every source of one measurement, source by source. */
  function EmitSources<V>(path: string, readings: seq<SourceReading<V>>): seq<Pair<V>> {
    if readings == [] then []
    else Emit(path, readings[0].source, readings[0].reading) + EmitSources(path, readings[1..])
  }

  /** All pairs of a measurement node at `path`, before any filtering. */
  function Expand<V>(path: string, node: Node<V>): seq<Pair<V>> {
    EmitSources(path, Readings(node))
  }

  /** Reference enumeration: every measurement node of the subtree, depth first. */
  function Measurements<V>(node: Node<V>, path: string): seq<Located<V>>
    decreases node
  {
    match node
    case Branch(children) => MeasurementsOf(children, path)
    case _ => [Located(path, node)]
  }

  function MeasurementsOf<V>(children: seq<Child<V>>, path: string): seq<Located<V>>
    decreases children
  {
    if children == [] then []
    else Measurements(children[0].node, Join(path, children[0].name))
         + MeasurementsOf(children[1..], path)
  }

  /** Reference extraction: filter the enumerated measurements, then expand. */
  function Collect<V>(ms: seq<Located<V>>, f: FilterSpec): seq<Pair<V>> {
    if ms == [] then []
    else (if Selected(f, ms[0].path) then Expand(ms[0].path, ms[0].node) else [])
         + Collect(ms[1..], f)
  }

  lemma {:induction false} CollectAppend<V>(a: seq<Located<V>>, b: seq<Located<V>>, f: FilterSpec)
    ensures Collect(a + b, f) == Collect(a, f) + Collect(b, f)
  {
    if a == [] {
      assert a + b == b;
    } else {
      assert (a + b)[1..] == a[1..] + b;
      CollectAppend(a[1..], b, f);
    }
  }

  /** The extraction walk: descend through branches and, at each measurement,
      consult the filter once on its base path before expanding it. It yields
      exactly the reference extraction of the same subtree. */
  function Walk<V>(node: Node<V>, path: string, f: FilterSpec): (r: seq<Pair<V>>)
    ensures r == Collect(Measurements(node, path), f)
    decreases node
  {
    match node
    case Branch(children) => WalkChildren(children, path, f)
    case _ =>
      assert Collect([Located(path, node)], f)
          == (if Selected(f, path) then Expand(path, node) else []) + Collect([], f);
      if Selected(f, path) then Expand(path, node) else []
  }

  function WalkChildren<V>(children: seq<Child<V>>, path: string, f: FilterSpec): (r: seq<Pair<V>>)
    ensures r == Collect(MeasurementsOf(children, path), f)
    decreases children
  {
    if children == [] then []
    else
      var head := Walk(children[0].node, Join(path, children[0].name), f);
      var tail := WalkChildren(children[1..], path, f);
      CollectAppend(Measurements(children[0].node, Join(path, children[0].name)),
                    MeasurementsOf(children[1..], path), f);
      head + tail
  }

  /** Extraction for the owner: nothing when the store has no data for it. */
  function Extract<V>(store: Store<V>, owner: string, f: FilterSpec): (pairs: seq<Pair<V>>) {
    if owner in store.vessels then Walk(store.vessels[owner], "", f) else []
  }

  /** The measurements of the owner's subtree, empty when the owner is absent. */
  function OwnerMeasurements<V>(store: Store<V>, owner: string): seq<Located<V>> {
    if owner in store.vessels then Measurements(store.vessels[owner], "") else []
  }

  /** A pair is extracted iff it belongs to some measurement whose base path the
      filter selects. */
  lemma {:induction false} CollectMembership<V>(ms: seq<Located<V>>, f: FilterSpec, p: Pair<V>)
    ensures p in Collect(ms, f) <==>
            exists i :: 0 <= i < |ms| && Selected(f, ms[i].path) && p in Expand(ms[i].path, ms[i].node)
  {
    if ms != [] {
      CollectMembership(ms[1..], f, p);
      if exists i :: 0 <= i < |ms| && Selected(f, ms[i].path) && p in Expand(ms[i].path, ms[i].node) {
        var i :| 0 <= i < |ms| && Selected(f, ms[i].path) && p in Expand(ms[i].path, ms[i].node);
        if i > 0 {
          assert ms[1..][i - 1] == ms[i];
        }
      }
      if p in Collect(ms[1..], f) {
        var j :| 0 <= j < |ms[1..]| && Selected(f, ms[1..][j].path)
                 && p in Expand(ms[1..][j].path, ms[1..][j].node);
        assert ms[j + 1] == ms[1..][j];
      }
    }
  }

  lemma ExtractMembership<V>(store: Store<V>, owner: string, f: FilterSpec, p: Pair<V>)
    ensures var ms := OwnerMeasurements(store, owner);
            p in Extract(store, owner, f) <==>
            exists i :: 0 <= i < |ms| && Selected(f, ms[i].path) && p in Expand(ms[i].path, ms[i].node)
  {
    CollectMembership(OwnerMeasurements(store, owner), f, p);
  }

  /** Include and Exclude over the same list partition the unfiltered extraction. */
  lemma {:induction false} CollectPartition<V>(ms: seq<Located<V>>, patterns: seq<string>)
    ensures multiset(Collect(ms, FilterSpec(Include, patterns)))
            + multiset(Collect(ms, FilterSpec(Exclude, patterns)))
            == multiset(Collect(ms, FilterSpec(Exclude, [])))
  {
    if ms != [] {
      CollectPartition(ms[1..], patterns);
    }
  }

  lemma ExtractPartition<V>(store: Store<V>, owner: string, patterns: seq<string>)
    ensures multiset(Extract(store, owner, FilterSpec(Include, patterns)))
            + multiset(Extract(store, owner, FilterSpec(Exclude, patterns)))
            == multiset(Extract(store, owner, FilterSpec(Exclude, [])))
  {
    CollectPartition(OwnerMeasurements(store, owner), patterns);
  }

  /** With an empty include list nothing is extracted. */
  lemma {:induction false} CollectIncludeNothing<V>(ms: seq<Located<V>>)
    ensures Collect(ms, FilterSpec(Include, [])) == []
  {
    if ms != [] {
      CollectIncludeNothing(ms[1..]);
    }
  }

  lemma ExtractIncludeNothing<V>(store: Store<V>, owner: string)
    ensures Extract(store, owner, FilterSpec(Include, [])) == []
  {
    CollectIncludeNothing(OwnerMeasurements(store, owner));
  }

  /** Several single-number sources fan out to one key per source, each
      carrying only its own source's value. */
  lemma {:induction false} FanOut<V>(path: string, readings: seq<SourceReading<V>>)
    requires forall i :: 0 <= i < |readings| ==> readings[i].reading.Number?
    ensures |EmitSources(path, readings)| == |readings|
    ensures forall i :: 0 <= i < |readings| ==>
              EmitSources(path, readings)[i]
              == Pair(Key(path, readings[i].source), readings[i].reading.value)
  {
    if readings != [] {
      FanOut(path, readings[1..]);
      var rest := EmitSources(path, readings[1..]);
      forall i | 0 <= i < |readings|
        ensures EmitSources(path, readings)[i]
                == Pair(Key(path, readings[i].source), readings[i].reading.value)
      {
        if i > 0 {
          assert readings[1..][i - 1] == readings[i];
          assert EmitSources(path, readings)[i] == rest[i - 1];
        }
      }
    }
  }

  /** A single-source number at a selected path yields exactly one pair, keyed
      by that path and source and holding the value unchanged. */
  lemma SimpleNumber<V>(path: string, source: string, v: V, f: FilterSpec)
    ensures Walk(Simple(source, Number(v)), path, f)
            == if Selected(f, path) then [Pair(Key(path, source), v)] else []
  {
    var node := Simple(source, Number(v));
    var readings := Readings(node);
    assert readings[1..] == [];
    assert Expand(path, node) == Emit(path, source, Number(v)) + EmitSources(path, readings[1..]);
  }

  /** A composite whose fields are all numbers flattens to one key per field,
      `path.<field>|source`, in field order. */
  lemma {:induction false} Flatten<V>(path: string, source: string, fields: seq<Field<V>>)
    requires forall i :: 0 <= i < |fields| ==> fields[i].reading.Number?
    ensures |EmitFields(path, source, fields)| == |fields|
    ensures forall i :: 0 <= i < |fields| ==>
              EmitFields(path, source, fields)[i]
              == Pair(Key(path + "." + fields[i].name, source), fields[i].reading.value)
  {
    if fields != [] {
      Flatten(path, source, fields[1..]);
      var rest := EmitFields(path, source, fields[1..]);
      var head := Emit(path + "." + fields[0].name, source, fields[0].reading);
      assert head == [Pair(Key(path + "." + fields[0].name, source), fields[0].reading.value)];
      assert EmitFields(path, source, fields) == head + rest;
      forall i | 0 <= i < |fields|
        ensures EmitFields(path, source, fields)[i]
                == Pair(Key(path + "." + fields[i].name, source), fields[i].reading.value)
      {
        if i > 0 {
          assert fields[1..][i - 1] == fields[i];
          assert EmitFields(path, source, fields)[i] == rest[i - 1];
        }
      }
    }
  }

  /** The separator of a key is its last `|` when the source holds none. */
  lemma KeyShape(path: string, source: string)
    requires '|' !in source
    ensures Key(path, source)[|path|] == '|'
    ensures forall i :: |path| < i < |Key(path, source)| ==> Key(path, source)[i] != '|'
  {
    var k := Key(path, source);
    forall i | |path| < i < |k|
      ensures k[i] != '|'
    {
      assert k[i] == source[i - |path| - 1];
    }
  }

  /** A key splits back into its path and source when the source holds no `|`:
      different sources of one path never share a series. */
  lemma KeyInjective(p1: string, s1: string, p2: string, s2: string)
    requires '|' !in s1 && '|' !in s2
    requires Key(p1, s1) == Key(p2, s2)
    ensures p1 == p2 && s1 == s2
  {
    KeyShape(p1, s1);
    KeyShape(p2, s2);
    if |p1| < |p2| {
      assert false;
    }
    if |p2| < |p1| {
      assert false;
    }
    var k := Key(p1, s1);
    assert s1 == k[|k| - |s1|..] == s2;
    assert p1 == k[..|p1|] == p2;
  }
}
